=== FILE: README.md ===
# Page allocator and vector growth, modelled in Dafny

This project models the core of a small C++ library that has three layers:

- **The arena `mem_pool`** (allocator/page_allocator.h). It reserves one anonymous mapping, keeps a guard page at each end, and commits pages one at a time behind a commit frontier. It hands out fixed-size slots with a bump pointer, `occupied_slots`.
- **The allocator facade `page_allocator`**. It sits over one arena. It throws `bad_alloc` past `_M_max_size` or once the occupied-slot count reaches `max_size`. It forwards `deallocate` and `extend_allocation` to the arena, and it compares two allocators equal by aligned element size.
- **The capacity logic of `vector`** (container/vector.h, container/vector_inner.h). When the allocator declares `continuous_allocator`, the vector first tries to grow its block in place through `extend_allocation` (`grow`/`expander`), and relocates only when that fails.

The model is a functional state machine:

- The arena is an immutable record of natural-number addresses and counters, with 0 as `nullptr`.
- Every operation is a pure function that returns its answer and the arena afterwards.
- The `size_t` counter arithmetic is reduced modulo 2^64 (`Common.SizeT`) wherever the source can wrap.
- The host is an oracle record, `Platform.Os`. It holds the `sysconf` page size, the `mmap` answer, the pages `mprotect` refuses, and whether `munmap` succeeds.
- A vector is its element sequence, the address of its block, its capacity in elements, and its allocator. Exceptions become `Err` results.

Files:

| file | module | contents |
|---|---|---|
| common.dfy | `Common` | `size_t` wrap-around, `PTRDIFF_MAX`, the `Result` type, small arithmetic lemmas |
| platform.dfy | `Platform` | the host oracle |
| arena.dfy | `Arena` | `mem_pool` and its operations |
| arena_properties.dfy | `ArenaProperties` | layout invariant, containment, adjacency, extend-in-place, rewinding on delete |
| facade.dfy | `PageAllocator` | `page_allocator` |
| facade_properties.dfy | `PageAllocatorProperties` | `allocate` limits, allocate/deallocate round trip, `operator==` |
| vector_base.dfy | `VectorBase` | `_Vector_impl_data` and the `_Vector_base` storage helpers |
| vector.dfy | `Vector` | `_M_check_len`, `grow`, `push_back`, `reserve`, `_M_realloc_insert`, `resize`, `_M_erase`, `at` |
| vector_properties.dfy | `VectorProperties` | growth in place, relocation, the grow-and-retry paths |

## Model

| member | source | states |
|---|---|---|
| Common.SizeT | allocator/page_allocator.h:351-352 | the `size_t` wrap-around the counters undergo: exact in range, plus 2^64 for a small negative value, always below 2^64 |
| Arena.Owns | allocator/page_allocator.h:161-166 | `owns` as written accepts no address once slot 0 lies past the leading guard page, which is always the case on a laid-out arena |
| Arena.OwnsFixed | allocator/page_allocator.h:161-166 | `owns` with both bounds corrected: the lower bound becomes inclusive (`allocation_area <= v` instead of `val > allocation_area`), so slot 0's first byte is owned, and the upper bound becomes `end_gp` instead of `begin_gp`. It accepts only addresses in the usable region between the two guard pages |
| Arena.CommitPage | allocator/page_allocator.h:182-194 | succeeds exactly when the page lies between the first usable page and `end_gp` inclusive and `mprotect` accepts it. Success moves the frontier one page past it and changes nothing else. Failure changes nothing |
| Arena.CommitLoop | allocator/page_allocator.h:205-217 | the loop changes only the frontier and never moves it back. Every page it passes was committable, and it stays within the reservation. On success the frontier reaches `pg`. On failure it stops on the refused page, before `pg` |
| Arena.CheckedRangeCommit | allocator/page_allocator.h:205-217 | a no-op returning true when `pg` is not past the frontier. On success the frontier is at least `pg` |
| Arena.CheckedRangeCommitFixed | allocator/page_allocator.h:196-217 | the intended range commit: on success byte `pg` lies on a committed page, on failure the frontier has not passed `pg`, and a byte already committed needs nothing |
| Arena.DeinitPool | allocator/page_allocator.h:258-272 | succeeds exactly when the arena is mapped and `munmap` works. It then resets every pointer and counter and keeps the cached page size. Failure changes nothing |
| Arena.InitPool | allocator/page_allocator.h:226-250 | refuses a mapped arena, changing nothing but the cached page size. Success needs a granted mapping, reserves the requested pages (0 means 10), starts with no occupied slot and puts the frontier one page past slot 0. A failure on an unmapped arena leaves it unmapped when `munmap` succeeds |
| Arena.InitPoolAsWritten | allocator/page_allocator.h:233-235 | a failed `mmap` on an unmapped arena leaves `MAP_FAILED` in `begin_gp`. In every other case it agrees with `Arena.InitPool` |
| Arena.BumpAllocate | allocator/page_allocator.h:285-296 | refuses, changing nothing, when fewer than `n` slots are free. Otherwise it hands out a block exactly when the pages up to its last byte can be committed, and the block starts at the bump pointer. Success moves `n` slots from free to occupied; failure changes only the frontier |
| Arena.GetAllocation | allocator/page_allocator.h:281-297 | a mapped arena bump-allocates. An unmapped one is first initialised with the default page count, and answers `nullptr` when that fails |
| Arena.ExtendAllocation | allocator/page_allocator.h:309-333 | fails with nothing changed for a null pointer, an unmapped arena, or a block that does not end at the bump pointer. A failure changes at most the frontier. Success shifts the `size_t` delta `new - old` from free to occupied |
| Arena.DeleteAllocation | allocator/page_allocator.h:343-355 | returns true exactly for a non-null pointer on a mapped arena, and then only subtracts `n` from occupied and adds it to free, modulo 2^64, with no check of the block |
| ArenaProperties.InitPoolSucceedsIff | allocator/page_allocator.h:226-250 | `init_pool` succeeds if and only if the arena is unmapped, `mmap` grants the mapping, at least two pages are requested and `mprotect` accepts the first usable page, so `init_pool(1)` always fails |
| ArenaProperties.InitPoolLayout | allocator/page_allocator.h:236-247 | a successful `init_pool` sets slot 0 one page past `begin_gp`, `end_gp` at page `pgs - 1`, no occupied slot, `(pgs - 2) * pagesize / sizeof(T)` free slots and the frontier one page past slot 0, and establishes the layout invariant |
| ArenaProperties.InitPoolKeepsValid | allocator/page_allocator.h:226-250 | `init_pool` keeps the arena invariant (unmapped, or laid out), including the path that releases the mapping after a failed first commit |
| ArenaProperties.InitTwoPagesCommitsGuardPage | allocator/page_allocator.h:238-243 | `init_pool(2)` succeeds with room for no slot, and its first commit makes the trailing guard page `end_gp` accessible |
| ArenaProperties.TeardownThenReinit | allocator/page_allocator.h:258-272 | `deinit_pool` succeeds once and leaves everything reset. A second call fails and changes nothing. A later `init_pool` succeeds again and restores the layout |
| ArenaProperties.FailedMmapSticksAsWritten | allocator/page_allocator.h:233-235 | as written, after one failed `mmap` a later `init_pool` is refused and `get_allocation` answers `nullptr`, for every host answer and request size, and neither call changes the arena: the `MAP_FAILED` state is a fixed point, so this holds forever |
| ArenaProperties.FailedMmapRecovers | allocator/page_allocator.h:233-235 | with the failed `mmap` leaving the arena unmapped, the next `init_pool` succeeds once the host grants a mapping |
| ArenaProperties.CommitPageLaxBounds | allocator/page_allocator.h:184-191 | the bounds test of `commit_page` checks neither alignment nor the guard page: it lets the address one byte into slot 0 through, which leaves the frontier strictly between two page starts when the host accepts that address, and it commits `end_gp` itself |
| ArenaProperties.CommitLoopSucceeds | allocator/page_allocator.h:205-217 | when `mprotect` refuses nothing, committing up to any byte below `end_gp` succeeds |
| ArenaProperties.RangeCommitMissesPageStartAsWritten | allocator/page_allocator.h:208-214 | as written, the block of `pagesize + 1` one-byte slots on a fresh arena ends on the first uncommitted page start, and the range commit reports success without committing that page |
| ArenaProperties.RangeCommitFixedCoversEndByte | allocator/page_allocator.h:196-217 | the corrected range commit leaves the end byte committed, never moves the frontier back, and a repeat call is a no-op |
| ArenaProperties.BumpOnLayout | allocator/page_allocator.h:285-296 | on a laid-out arena bump allocation never wraps. It either hands out the `n` slots at the bump pointer with every byte on a committed page, or hands out nothing and at most advances the frontier. The layout survives either way |
| ArenaProperties.EndByteOnLayout | allocator/page_allocator.h:288 | with `n` slots free, the computed end byte is exactly one below the next slot address, the block ends at or before `end_gp`, and the new occupied count does not wrap |
| ArenaProperties.GetAllocationKeepsValid | allocator/page_allocator.h:281-297 | `get_allocation`, including its lazy `init_pool(0)`, keeps the arena invariant |
| ArenaProperties.GetAllocationContained | allocator/page_allocator.h:281-297 | a block handed out lies between slot 0 and `end_gp`, on committed pages, and keeps `occupied + free` unchanged. The corrected `owns` accepts every byte of it; the `owns` as written accepts none |
| ArenaProperties.OwnsSlotZeroFirstByte | allocator/page_allocator.h:164 | on a laid-out arena with a usable page, slot 0's first byte is owned by the corrected `owns`, and the strict lower bound of the source rejects it whatever the upper bound |
| ArenaProperties.GetAllocationSucceedsWithRoom | allocator/page_allocator.h:285-296 | with `n` slots free and no page refused, the block is handed out at the bump pointer, and the bump pointer then sits right after it |
| ArenaProperties.ConsecutiveAllocationsAdjacent | allocator/page_allocator.h:292-294 | two consecutive successful allocations are adjacent: the second starts where the first ends |
| ArenaProperties.ExtendShrinkFails | allocator/page_allocator.h:310-316 | a shrink request wraps to a delta near 2^64, more than is free, so it fails and changes nothing |
| ArenaProperties.ExtendOnLayout | allocator/page_allocator.h:309-333 | on a laid-out arena, growing by `d` slots succeeds if and only if the block is non-null and trailing, `d` slots are free, and their pages can be committed. Success moves `d` slots from free to occupied without wrapping, and the layout survives |
| ArenaProperties.ExtendKeepsValid | allocator/page_allocator.h:309-333 | `extend_allocation` of any block of the arena keeps the arena invariant |
| ArenaProperties.ExtendSucceedsWithRoom | allocator/page_allocator.h:316-330 | the trailing block grows by `d` slots whenever `d` slots are free and no page is refused |
| ArenaProperties.ExtendInPlace | allocator/page_allocator.h:309-333 | a block grown in place stays where it was, and the next block starts right after the grown one |
| ArenaProperties.ExtendAfterInterveningFails | allocator/page_allocator.h:318-320 | while a block handed out after it is still held, a block is not extendable, whatever the sizes, and the refused request leaves the arena unchanged |
| ArenaProperties.DeleteKeepsValid | allocator/page_allocator.h:343-355 | freeing at most the occupied count keeps the arena invariant |
| ArenaProperties.DeleteTooManyWraps | allocator/page_allocator.h:351-352 | freeing more than the occupied count wraps the counter to `2^64` minus the overshoot, beyond the arena's capacity, which breaks the invariant |
| ArenaProperties.DeleteInteriorThenAllocateOverlaps | allocator/page_allocator.h:343-355 | after blocks A and B, freeing A rewinds the bump pointer, so the next block C starts `b` slots into A. C overlaps the live block B if and only if `a < b + c` |
| ArenaProperties.Scenario | allocator/page_allocator.h:226-333 | a concrete run: 4 pages of 4096 bytes with 8-byte slots give 1024 free slots. 10 slots come from slot 0 and are then extended in place to 20, and the next 5 slots start 20 slots in |
| PageAllocator.Allocate | allocator/page_allocator.h:443-451 | throws `bad_alloc` exactly when `n` exceeds `PTRDIFF_MAX / sizeof(T)` or the occupied count plus one exceeds `max_size`. Otherwise it returns the pointer `get_allocation(n)` returns, possibly `nullptr`, and the arena `get_allocation` leaves, and changes nothing else |
| PageAllocator.Deallocate | allocator/page_allocator.h:460-463 | the arena afterwards is the one `delete_allocation(p, n)` leaves: a null pointer or an unmapped arena changes nothing, and otherwise `n` slots move from occupied to free, modulo 2^64 |
| PageAllocator.Extend | allocator/page_allocator.h:478-481 | answers exactly what the arena's `extend_allocation` answers and keeps the arena it leaves; a refusal changes at most the frontier |
| PageAllocator.Destroy | allocator/page_allocator.h:424-427 | when the arena is mapped and `munmap` fails, the `runtime_error` thrown in the implicitly `noexcept` destructor ends the program through `std::terminate` (`Terminated`), and exactly then. Otherwise a mapped arena ends up unmapped |
| PageAllocator.AlignedSizeOfType | allocator/page_allocator.h:530-532 | for any C++ object type, the `aligned_storage` size equals `sizeof(T)` |
| PageAllocator.TypeMaxSize | allocator/page_allocator.h:496-503 | `_M_max_size` is the largest count whose byte size fits in `PTRDIFF_MAX`: `r * sizeof(T) <= PTRDIFF_MAX < (r + 1) * sizeof(T)` |
| PageAllocator.MaxSize | allocator/page_allocator.h:471-475 | `max_size` is the ceiling `objs_number` when one is set, and `_M_max_size` when it is 0 |
| PageAllocator.Equal | allocator/page_allocator.h:517-535 | for two allocators with the same `_MaxObjects`, the only pairs the operator is declared for, `==` holds if and only if their element types have the same size |
| PageAllocator.NotEqual | allocator/page_allocator.h:537-542 | `!=` is the negation of `==`, so it holds exactly when the element sizes differ |
| PageAllocator.EqualFixed | allocator/page_allocator.h:517-535 | the comparison the allocator requirements ask for: it implies `==`, and freeing any block through either allocator leaves the same arena |
| PageAllocatorProperties.EqualIsEquivalence | allocator/page_allocator.h:517-535 | `==` is reflexive, symmetric and transitive |
| PageAllocatorProperties.EqualIgnoresPools | allocator/page_allocator.h:517-535 | the comparison does not depend on either arena's contents |
| PageAllocatorProperties.AllocateLimitsCount | allocator/page_allocator.h:443-451 | with a ceiling set, `allocate` throws if and only if `n` exceeds `PTRDIFF_MAX / sizeof(T)` or the arena already holds `objs_number` slots. The request itself is never compared with `max_size` |
| PageAllocatorProperties.AllocateStopsAtMaxSize | allocator/page_allocator.h:443-451 | for a request within `_M_max_size` on a laid-out arena, `allocate` succeeds if and only if the occupied count is below `max_size` |
| PageAllocatorProperties.AllocateMoreThanMaxSize | allocator/page_allocator.h:443-451 | with the default ceiling of 10, a single request for 11 objects succeeds and leaves 11 occupied slots, more than `max_size` |
| PageAllocatorProperties.AllocateDeallocateRoundTrip | allocator/page_allocator.h:460-463 | `deallocate` undoes `allocate`: the counters return to what they were, and only the frontier may have advanced |
| PageAllocatorProperties.EqualAllocatorsNotInterchangeable | allocator/page_allocator.h:517-535 | equal allocators cannot free each other's storage, which the allocator requirements read into `==`. A block from `a` freed through an equal, empty `b` wraps `b`'s count and breaks `b`'s invariant, while `a` still counts the block |
| PageAllocatorProperties.EqualFixedInterchangeable | allocator/page_allocator.h:517-535 | with the corrected comparison, an allocator equal to `a` after `a` handed out a block frees it correctly: the counters return to their values before the allocation, the layout holds, and at most the frontier has advanced |
| PageAllocatorProperties.DestroyReleases | allocator/page_allocator.h:424-427 | the destructor unmaps a mapped arena, and destroying again has nothing to do |
| VectorBase.SwapData | container/vector_inner.h:31-38 | the two objects exchange all three pointers exactly |
| VectorBase.MoveData | container/vector_inner.h:21-23 | the new object takes the three pointers and the source becomes three null pointers |
| VectorBase.CopyData | container/vector_inner.h:25-29 | the target takes all three pointers of the source, whatever it held before |
| VectorBase.SizeOf | container/vector.h:399 | `size()` is the element count between `start` and `finish`: that many elements from `start` end exactly at `finish` |
| VectorBase.CapacityOf | container/vector.h:445 | `capacity()` is the element count between `start` and `end_of_storage`: that many elements from `start` end exactly at `end_of_storage` |
| VectorBase.DestroyBase | container/vector_inner.h:98 | `~_Vector_base` changes only the allocator's arena; a null block or an unmapped arena is left alone, and otherwise the whole capacity `(end_of_storage - start) / sizeof(T)` moves from occupied to free, modulo 2^64 |
| VectorBase.MAllocate | container/vector_inner.h:103-106 | 0 elements give `nullptr` without touching the allocator; any other count is the allocator's `allocate` |
| VectorBase.MDeallocate | container/vector_inner.h:107-110 | a null pointer is ignored; anything else is the allocator's `deallocate` with the same count |
| VectorBase.CreateStorage | container/vector_inner.h:113-117 | the new storage starts at the allocated block, with size 0 and capacity `n`, and the allocator afterwards is the one `_M_allocate(n)` leaves. It fails exactly when the allocation throws |
| VectorProperties.DataAgrees | container/vector.h:399-445 | `size()` and `capacity()` computed from the three pointers are the element count and the capacity |
| VectorProperties.SwapTwiceIsIdentity | container/vector_inner.h:31-38 | `_M_swap_data` applied twice restores both objects |
| VectorProperties.MoveEmptiesSource | container/vector_inner.h:21-23 | the moved-from object is the value-initialised one, and moving it on transfers nothing |
| VectorProperties.DestroyBaseReleasesCapacity | container/vector_inner.h:98 | `~_Vector_base` frees the whole capacity, not the size: `capacity` slots move from occupied to free |
| VectorProperties.CreateEmptyStorage | container/vector_inner.h:103-117 | `_M_create_storage(0)` yields three null pointers and leaves the allocator untouched |
| VectorProperties.CreateThenDestroyRoundTrip | container/vector_inner.h:98-117 | for every `n`, `~_Vector_base` undoes `_M_create_storage(n)` on a laid-out arena: the counters return to what they were and at most the frontier has advanced |
| Vector.CheckLen | container/vector.h:926-931 | throws `length_error` exactly when fewer than `n` elements remain below `max_size`. Otherwise the new length is `min(max(2 * size, size + n), max_size)`: it leaves room for `n` more, never exceeds `max_size`, and at least doubles the size unless capped |
| Vector.MaxSize | container/vector.h:939-946 | `_S_max_size` is the smaller of `PTRDIFF_MAX / sizeof(T)` and the allocator's `max_size`: it is one of the two, its byte size fits in `PTRDIFF_MAX`, and it never exceeds the allocator's `max_size` |
| VectorProperties.CheckLenIsLeastAdequate | container/vector.h:926-931 | no length between the needed `size + n` and `_M_check_len(n)` is both at least double the size and within `max_size`, so the answer is the least adequate length |
| Vector.Grow | container/vector.h:1001-1025 | fails with `length_error` exactly when the block is non-null and `_M_check_len(k)` throws. A null block or the default expander answers false with nothing changed. With the continuous allocator the answer and the allocator afterwards are those of `extend_allocation(start, capacity, _M_check_len(k))`. Success keeps start and elements and sets the capacity to `_M_check_len(k)` |
| Vector.ReallocInsert | container/vector.h:1298-1336 | the elements become `old[..pos] + [x] + old[pos..]` in a new non-null block of `_M_check_len(1)` elements, which is the block `_M_allocate` returned; the old block is then freed with its whole capacity. It throws `length_error` exactly when the size is already `max_size` |
| Vector.PushBack | container/vector.h:588-596 | appends exactly `x` and keeps the earlier elements and the invariant. With spare capacity in a non-null block it always succeeds and changes nothing else. A full vector calls `grow(1)`: its `length_error` is passed on, a growth in place appends `x` to the grown vector, and otherwise the answer is `_M_realloc_insert` at the end |
| Vector.ReserveRelocate | container/vector.h:1088-1103 | the relocating path keeps the elements in the block `_M_allocate(n)` returned, with capacity exactly `n`, and frees the old block with its whole capacity |
| Vector.ReserveAsWritten | container/vector.h:1082-1105 | as written: `length_error` beyond `max_size`, nothing done when the capacity suffices, and on success the elements are kept with capacity at least `n`. Otherwise the answer is that of `grow(n)`: its error, the grown vector, or the relocating path into `_M_allocate(n)` |
| Vector.Reserve | container/vector.h:1082-1105 | throws `length_error` if and only if `n > max_size`, does nothing when the capacity suffices, and otherwise keeps the elements with capacity at least `n`. Beyond the capacity, `grow(n - size())` cannot throw: the answer is the grown vector, or the relocating path with capacity exactly `n` and the old block freed with its whole capacity |
| Vector.DefaultAppend | container/vector.h:1387-1425 | appends exactly `n` value-initialised elements; `n == 0` changes nothing. When they fit in the spare capacity of a non-null block, it always succeeds and the block and capacity stay |
| Vector.DefaultAppendRelocate | container/vector.h:1398-1425 | the relocating branch: the old elements followed by `n` value-initialised ones in the non-null block `_M_allocate(_M_check_len(n))` returned, with that capacity. The old block is freed with its whole capacity. It throws `length_error` exactly when `size + n` exceeds `max_size` |
| Vector.Resize | container/vector.h:413-418 | afterwards the size is `m`, the first `min(m, size)` elements are unchanged, and new positions hold the value-initialised element. Shrinking never fails and keeps block and capacity |
| Vector.Erase | container/vector.h:1142-1147 | removes exactly the element at `pos`, keeps the order of the rest and everything else, and returns `pos` |
| Vector.EraseRange | container/vector.h:1149-1156 | removes exactly `[first, last)`, keeps the order of the rest and everything else, and returns `first` |
| Vector.At | container/vector.h:501-524 | throws `out_of_range` if and only if `n >= size()`, otherwise returns element `n` |
| Vector.GrowByShortfall | container/vector.h:1196-1199 | the corrected retry step: on a non-null block it throws exactly when `n > max_size`, and a reported success leaves room for all `n` elements, so the retry takes the in-capacity branch |
| Vector.GrowByShortfallAsWritten | container/vector.h:1196-1199 | the retry step as written, `grow(n - capacity())`: on a non-null block it throws exactly when `size + (n - capacity)` exceeds `max_size`, keeps the elements and the invariant, and a reported growth sets the capacity to `_M_check_len(n - capacity)`, which can leave less room than `n` |
| VectorProperties.PushBackLengthErrorIff | container/vector.h:588-596 | `push_back` throws `length_error` if and only if the vector is full and already holds `max_size` elements |
| VectorProperties.PushBackThenAt | container/vector.h:588-596 | after `push_back(x)`, `at(size)` is `x` and every earlier `at(i)` is unchanged |
| VectorProperties.EraseThenAt | container/vector.h:1142-1147 | after `erase(pos)`, positions before `pos` are unchanged and later ones hold their successor |
| VectorProperties.EraseIsRangeOfOne | container/vector.h:1142-1156 | erasing one element equals erasing the range of length one |
| VectorProperties.ResizeThenAt | container/vector.h:413-418 | after `resize(m)`, `at` answers for exactly `m` positions, with the old element or the value-initialised one |
| VectorProperties.GrowExtendsInPlace | container/vector.h:1017-1025 | a full vector whose block is the arena's trailing block grows in place to `_M_check_len(k)` when the arena has room, and stays the trailing block |
| VectorProperties.PushBackGrowsInPlace | container/vector.h:588-596 | `push_back` on a full trailing vector in a roomy arena extends the block in place: same start, capacity `_M_check_len(1)` |
| VectorProperties.ReallocInsertSharesBlock | container/vector.h:1298-1336 | after relocation, freeing the old block rewinds the arena's bump pointer into the new block. The vector can no longer grow in place, and the arena's next block starts inside the vector's storage |
| VectorProperties.ReserveThrowsWithinMaxSize | container/vector.h:1082-1086 | as written, `reserve(n)` with `n <= max_size` throws `length_error` whenever fewer than `n` elements remain free below `max_size`; the corrected `reserve` does not |
| VectorProperties.ReserveNineOfTen | container/vector.h:1082-1086 | with the default ceiling of 10, a vector of 5 elements in a block of 8 cannot `reserve(9)` as written, and can with the correction |
| VectorProperties.GrowByShortfallAsWrittenIsFixedPoint | container/vector.h:1196-1199 | as written, for size `s`, capacity `2s`, a trailing block and `2s < n <= 3s`, `grow(n - capacity())` reports success and returns the very same vector, so the retry never ends |
| VectorProperties.FillAssignFifteenLoops | container/vector.h:1196-1199 | the concrete instance (size 5, capacity 10, `assign(15, x)`) loops as written, and the corrected step leaves room for 15 |

## Left out

- Host calls. `mmap`, `mprotect`, `munmap` and `sysconf` are not modelled as real page protections. Their answers are an oracle record, and the page size is a positive parameter. A `sysconf` failure (`set_pagesize() == -1`, allocator/page_allocator.h:229) is not modelled.
- The host oracle is fixed for the length of one modelled call. For example, the lazy `init_pool` inside `get_allocation` and the commit that follows see the same host.
- Logging (`Logger::log_line`, allocator/log_traits.h) is left out as a side channel with no effect on results. main.cpp is a demo and is left out too.
- Copy, move, swap and conversion construction of `mem_pool` and `page_allocator`, `get_mem_pool` and `rebind` are left out. They are resource plumbing that maps fresh memory.
- The bit-array index described in the comment at the head of allocator/page_allocator.h is not implemented in the source and is not modelled.
- Element construction and destruction, relocation and move-if-noexcept are left out, and so is `try`/`catch` rollback. An operation that throws returns `Err`, and the state it leaves behind is not modelled.
- Iterators, allocator-traits propagation flags, `insert`, `assign` from iterators, `shrink_to_fit` and `vector<bool>` are left out.
- Of `_M_fill_assign` and copy assignment, only the `grow(n - capacity())` retry step is modelled. The element copying and the branch that frees storage for an unequal allocator are not.
- The other users of `grow(1)` (`insert`, `_M_insert_aux`) are left out. They follow the same three-way pattern as `push_back`.
- `resize(m)` and `resize(m, x)` are one function. The appended value `d` is a parameter standing for the value-initialised element or `x`.
- `Vector.DefaultAppend`: the `__builtin_unreachable` test of container/vector.h:1392 is not modelled. The vector invariant (`size <= capacity <= max_size`) makes its condition false.
- `Vector.ReallocInsert`, `Vector.PushBack`, `Vector.DefaultAppend`, `Vector.DefaultAppendRelocate` and `Vector.ReserveRelocate`: when the arena hands out `nullptr`, the source constructs elements through a null pointer, which is undefined behaviour. The model reports `NullStorage` instead.
- `Vector.DefaultAppend`: its own contract does not give the capacity or the arena after relocation. `Vector.DefaultAppendRelocate` states both for the relocating branch it calls.
- `Arena.BumpAllocate`, `Arena.GetAllocation` and `Arena.ExtendAllocation` run the corrected range commit (`Arena.CheckedRangeCommitFixed`) and the corrected `init_pool` (`Arena.InitPool`), not the code as written. On the input of the second finding (one-byte slots, `get_allocation(pagesize + 1)`) the model also commits the page at `begin_gp + 2 * pagesize`, and answers `nullptr` when `mprotect` refuses it, where the program hands out the block. After a failed `mmap` the model can retry, where the program answers `nullptr` forever.
- `PageAllocator.Allocate`, `PageAllocator.Extend`, `VectorBase.MAllocate`, `VectorBase.CreateStorage`, `Vector.Grow`, `Vector.PushBack`, `Vector.ReallocInsert`, `Vector.Reserve`, `Vector.ReserveRelocate`, `Vector.DefaultAppend` and `Vector.DefaultAppendRelocate` are built on those corrected arena members and share that difference.
- `ArenaProperties.CommitPageLaxBounds`: the host oracle (`Platform.MprotectOk`) refuses only the pages listed in it and does not check alignment. Linux's `mprotect` refuses an unaligned address with `EINVAL`, so on a real host the unaligned commit fails and only `commit_page`'s own bounds test lets it through.
- `PageAllocator.Destroy`: `std::terminate` is modelled as the result `Err(Terminated)`. The model does not stop the program or run any handler.
- `PageAllocator.Deallocate`: the boolean `delete_allocation` returns is dropped, as the source drops it.
- `ArenaProperties.DeleteTooManyWraps`: the lemma covers overshoots below `2^64 - capacity`. A larger overshoot wraps the occupied count back into range.
- `ArenaProperties.InitPoolLayout`, `ArenaProperties.InitPoolKeepsValid` and `ArenaProperties.GetAllocationKeepsValid` assume the host places the whole mapping below 2^64 (`Platform.MappingFits`), as any real `mmap` does.

## Findings

Two notes apply to every row below:

- Each as-written member is proved to show the discrepancy on the input given.
- The rest of the model uses the corrected member.

| source | as written | input that shows it | evidently intended | confidence | as-written member | corrected member |
|---|---|---|---|---|---|---|
| allocator/page_allocator.h:164 | `owns` tests `val > allocation_area && val < begin_gp` | any address on a laid-out arena, e.g. every byte of a block `get_allocation` handed out; slot 0's first byte is also rejected by the strict lower bound alone | both bounds change: the lower bound includes `allocation_area`, and the upper bound is `end_gp`, the start of the trailing guard page | not executed; high | Arena.Owns | Arena.OwnsFixed |
| allocator/page_allocator.h:210 | `checked_range_commit` commits while `page_to_commit < pg` | one-byte elements, fresh arena, `get_allocation(pagesize + 1)`: the last byte is the first uncommitted page start, and no page is committed for it | the page holding the end byte is committed (`<=`) | not executed; high | ArenaProperties.RangeCommitMissesPageStartAsWritten | Arena.CheckedRangeCommitFixed |
| allocator/page_allocator.h:233-235 | `begin_gp` takes the `mmap` result before it is checked, so a failed `mmap` leaves `MAP_FAILED` in it | one `mmap` failure; every later `init_pool` returns false and `get_allocation` returns `nullptr` | `begin_gp` stays null so that a later `init_pool` can retry | not executed; high | ArenaProperties.FailedMmapSticksAsWritten | ArenaProperties.FailedMmapRecovers |
| container/vector.h:1197-1199 | `_M_fill_assign` (and `operator=` at container/vector.h:1175-1177) retries after `grow(n - capacity())` | size 5, capacity 10, trailing block, `assign(15, x)`: `_M_check_len(5)` is 10, the extend by 0 slots succeeds, and the retry sees the same vector | `grow(n - size())`, which leaves room for `n` elements | not executed; high | VectorProperties.FillAssignFifteenLoops | Vector.GrowByShortfall |
| container/vector.h:1085 | `reserve(n)` calls `grow(n)`, and `_M_check_len(n)` asks for room for `n` more elements | default ceiling 10, size 5, capacity 8, `reserve(9)` throws `length_error` although `9 <= max_size()` | `grow(n - size())` | not executed; high | VectorProperties.ReserveNineOfTen | Vector.Reserve |
| allocator/page_allocator.h:517-535 | `operator==` compares only the aligned element sizes, although the comment above it says `a1 == a2` only if storage from `a1` can be freed through `a2` | two allocators of one element type with separate arenas: they compare equal, and a block from the first freed through an empty second wraps the second's occupied count to `2^64 - n` | equal only when the element sizes agree and both allocators are at the same arena | not executed; medium | PageAllocatorProperties.EqualAllocatorsNotInterchangeable | PageAllocator.EqualFixed |

=== FILE: arena.dfy ===
/** The memory arena `mem_pool` of allocator/page_allocator.h: one reserved
    mapping bracketed by two guard pages, a commit frontier that advances one
    page at a time, and a bump allocator counting fixed-size slots.

    The arena is an immutable record; every operation is a step function that
    returns its result together with the arena after the call. Addresses are
    unbounded naturals with 0 for `nullptr`; the `size_t` counter arithmetic
    of the source is reduced modulo 2^64 with `SizeT` where it can wrap. */
module Arena {
  import opened Common
  import opened Platform

  /** `allocate_pgs`: pages reserved when `init_pool` is asked for 0 pages. */
  const DefaultPages: nat := 10

  /** The fields of `mem_pool`. `slotSize` is `sizeof(elem_type)`, a property
      of the element type that no operation changes. */
  datatype Pool = Pool(
    beginGp: nat,            // start of the leading guard page (0 when not mapped)
    endGp: nat,              // start of the trailing guard page
    allocationArea: nat,     // address of slot 0
    firstNotCommitted: nat,  // commit frontier
    pagesMmaped: nat,
    occupiedSlots: nat,      // also the bump pointer, counted in slots
    freeSlotsLeft: nat,
    pageSize: nat,           // 0 until sysconf has been asked
    slotSize: Pos)

  /** A step that answers yes or no. */
  datatype BoolStep = BoolStep(ok: bool, pool: Pool)

  /** A step that answers an address (0 for `nullptr`). */
  datatype PtrStep = PtrStep(ptr: nat, pool: Pool)

  /** A default-constructed `mem_pool`. */
  function Fresh(slotSize: Pos): Pool {
    Pool(0, 0, 0, 0, 0, 0, 0, 0, slotSize)
  }

  /** Every pointer and counter is in its empty state (the page size is a cache
      that survives teardown). */
  predicate Unmapped(p: Pool) {
    && p.beginGp == 0 && p.endGp == 0 && p.allocationArea == 0
    && p.firstNotCommitted == 0 && p.pagesMmaped == 0
    && p.occupiedSlots == 0 && p.freeSlotsLeft == 0
  }

  /** A mapped arena has asked the host for its page size. */
  predicate PageSizeKnown(p: Pool) {
    p.beginGp != 0 ==> p.pageSize > 0
  }

  /** `allocation_area + k`: the address of slot k. */
  function SlotAddr(p: Pool, k: nat): nat {
    p.allocationArea + k * p.slotSize
  }

  /** Number of slots the usable pages between the two guard pages hold. */
  function Capacity(p: Pool): nat {
    if p.pagesMmaped < 2 then 0 else (p.pagesMmaped - 2) * p.pageSize / p.slotSize
  }

  /** The layout `init_pool` establishes and every operation keeps. */
  predicate Layout(p: Pool) {
    && p.beginGp > 0 && p.pageSize > 0 && p.pagesMmaped >= 2
    && p.allocationArea == p.beginGp + p.pageSize
    && p.endGp == p.beginGp + (p.pagesMmaped - 1) * p.pageSize
    && p.endGp + p.pageSize <= SizeMax
    && p.occupiedSlots + p.freeSlotsLeft == Capacity(p)
    && p.allocationArea + p.pageSize <= p.firstNotCommitted <= p.endGp + p.pageSize
    // every byte of an occupied slot lies on a committed page
    && SlotAddr(p, p.occupiedSlots) <= p.firstNotCommitted
  }

  /** The arena invariant: either torn down or laid out. */
  predicate Valid(p: Pool) {
    if p.beginGp == 0 then Unmapped(p) else Layout(p)
  }

  /** `owns`, as written: it tests `val < begin_gp` where the trailing guard
      page `end_gp` is meant, so no address passes once slot 0 lies past the
      leading guard page. */
  function Owns(p: Pool, v: nat): (r: bool)
    ensures p.beginGp <= p.allocationArea ==> !r
  {
    p.allocationArea < v < p.beginGp
  }

  /** `owns` with both bounds corrected to the usable region
      `[allocation_area, end_gp)`: the upper bound is the trailing guard page
      `end_gp`, and the lower bound includes slot 0's first byte, which the
      strict `val > allocation_area` of the source rejects. */
  function OwnsFixed(p: Pool, v: nat): (r: bool)
    ensures Layout(p) && r ==> p.beginGp + p.pageSize <= v < p.endGp
  {
    p.allocationArea <= v < p.endGp
  }

  /** The two bound checks and the `mprotect` call of `commit_page`. Note what
      is not checked: that `pg` is page aligned, and that `pg` is not the
      trailing guard page `end_gp` itself. */
  predicate Committable(p: Pool, os: Os, pg: nat) {
    p.beginGp + p.pageSize <= pg <= p.endGp && MprotectOk(os, pg)
  }

  /** `commit_page`: make one page accessible and move the frontier past it. */
  function CommitPage(p: Pool, os: Os, pg: nat): (r: BoolStep)
    ensures r.ok <==> Committable(p, os, pg)
    ensures r.ok ==> r.pool == p.(firstNotCommitted := pg + p.pageSize)
    ensures !r.ok ==> r.pool == p
  {
    if pg < p.beginGp + p.pageSize || pg > p.endGp then BoolStep(false, p)
    else if !MprotectOk(os, pg) then BoolStep(false, p)
    else BoolStep(true, p.(firstNotCommitted := pg + p.pageSize))
  }

  /** Every page from `from` up to (not including) `to`, stepping one page at a
      time, passes `commit_page`. */
  predicate AllCommittable(p: Pool, os: Os, from: nat, to: nat)
    requires p.pageSize > 0
    decreases if from < to then to - from else 0
  {
    from < to ==> Committable(p, os, from) && AllCommittable(p, os, from + p.pageSize, to)
  }

  /** Whether pages pass `commit_page` does not depend on the frontier. */
  lemma AllCommittableIgnoresFrontier(p: Pool, q: Pool, os: Os, from: nat, to: nat)
    requires p.pageSize > 0
    requires q == p.(firstNotCommitted := q.firstNotCommitted)
    ensures AllCommittable(p, os, from, to) == AllCommittable(q, os, from, to)
    decreases if from < to then to - from else 0
  {
    if from < to {
      AllCommittableIgnoresFrontier(p, q, os, from + p.pageSize, to);
    }
  }

  /** The loop of `checked_range_commit`: its loop variable always equals the
      frontier, since each successful `commit_page` moves the frontier exactly
      one page past the page it committed. With `inclusive` false it commits
      while the frontier is below `pg`, as written; with `inclusive` true also
      the page that starts at `pg`. */
  function CommitLoop(p: Pool, os: Os, pg: nat, inclusive: bool): (r: BoolStep)
    requires p.pageSize > 0
    ensures r.pool == p.(firstNotCommitted := r.pool.firstNotCommitted)
    ensures p.firstNotCommitted <= r.pool.firstNotCommitted
    ensures AllCommittable(p, os, p.firstNotCommitted, r.pool.firstNotCommitted)
    ensures p.firstNotCommitted < r.pool.firstNotCommitted ==> r.pool.firstNotCommitted <= p.endGp + p.pageSize
    ensures r.ok ==> if inclusive then pg < r.pool.firstNotCommitted else pg <= r.pool.firstNotCommitted
    ensures !r.ok ==> !Committable(p, os, r.pool.firstNotCommitted)
    ensures !r.ok ==> if inclusive then r.pool.firstNotCommitted <= pg else r.pool.firstNotCommitted < pg
    decreases pg + 1 - p.firstNotCommitted
  {
    var f := p.firstNotCommitted;
    if (if inclusive then f <= pg else f < pg) then
      var c := CommitPage(p, os, f);
      if !c.ok then BoolStep(false, c.pool)
      else
        var r := CommitLoop(c.pool, os, pg, inclusive);
        AllCommittableIgnoresFrontier(c.pool, p, os, f + p.pageSize, r.pool.firstNotCommitted);
        r
    else BoolStep(true, p)
  }

  /** `checked_range_commit`, as written: nothing to do unless `pg` lies past the
      frontier, and then pages are committed only while they start below `pg`,
      so a `pg` that is itself a page start is left on an uncommitted page. */
  function CheckedRangeCommit(p: Pool, os: Os, pg: nat): (r: BoolStep)
    requires p.pageSize > 0
    ensures pg <= p.firstNotCommitted ==> r == BoolStep(true, p)
    ensures r.ok ==> pg <= r.pool.firstNotCommitted
  {
    if pg > p.firstNotCommitted then CommitLoop(p, os, pg, false) else BoolStep(true, p)
  }

  /** `checked_range_commit` as its comment describes it: afterwards the page
      holding byte `pg` is committed too. The arena's operations use this one. */
  function CheckedRangeCommitFixed(p: Pool, os: Os, pg: nat): (r: BoolStep)
    requires p.pageSize > 0
    ensures pg < p.firstNotCommitted ==> r == BoolStep(true, p)
    ensures r.ok ==> pg < r.pool.firstNotCommitted
    ensures !r.ok ==> r.pool.firstNotCommitted <= pg
  {
    CommitLoop(p, os, pg, true)
  }

  /** `deinit_pool`: release the mapping and reset every field. */
  function DeinitPool(p: Pool, os: Os): (r: BoolStep)
    ensures r.ok <==> p.beginGp != 0 && os.munmapOk
    ensures r.ok ==> Unmapped(r.pool) && r.pool.pageSize == p.pageSize && r.pool.slotSize == p.slotSize
    ensures !r.ok ==> r.pool == p
  {
    if p.beginGp == 0 then BoolStep(false, p)
    else if !os.munmapOk then BoolStep(false, p)
    else BoolStep(true, Pool(0, 0, 0, 0, 0, 0, 0, p.pageSize, p.slotSize))
  }

  /** The page count `init_pool` reserves when asked for `pgs`. */
  function RequestedPages(pgs: nat): (n: Pos) {
    if pgs == 0 then DefaultPages else pgs
  }

  /** The page size in force after `init_pool`'s first line: the cached one, or
      the host's when none is cached yet. */
  function WithPageSize(p: Pool, os: Os): (q: Pool)
    ensures q.pageSize > 0 || p.pageSize > 0
    ensures q.pageSize == (if p.pageSize == 0 then os.pageSize else p.pageSize)
  {
    if p.pageSize == 0 then p.(pageSize := os.pageSize) else p
  }

  /** The fields `init_pool` writes once `mmap` has granted `n` pages at `b`,
      before the first usable page is committed. */
  function Reserved(p: Pool, b: Pos, n: Pos): Pool {
    p.(beginGp := b, pagesMmaped := n,
       allocationArea := b + p.pageSize,
       endGp := b + (n - 1) * p.pageSize,
       firstNotCommitted := b + 2 * p.pageSize,
       occupiedSlots := 0,
       freeSlotsLeft := SizeT(n * p.pageSize - 2 * p.pageSize) / p.slotSize)
  }

  /** `init_pool`, with a failed `mmap` leaving the arena unmapped (the source
      stores `MAP_FAILED` into `begin_gp`; see `InitPoolAsWritten`). The first
      usable page is committed at once; if that fails the mapping is released
      again. The arena's operations use this one. */
  function InitPool(p: Pool, os: Os, pgs: nat): (r: BoolStep)
    ensures r.pool.pageSize > 0
    ensures p.beginGp != 0 ==> r == BoolStep(false, WithPageSize(p, os))
    ensures r.ok ==> p.beginGp == 0 && os.mmap.Mapped?
    ensures r.ok ==> r.pool.pagesMmaped == RequestedPages(pgs) && r.pool.occupiedSlots == 0
    ensures r.ok ==> r.pool.firstNotCommitted == r.pool.allocationArea + r.pool.pageSize
    ensures !r.ok && p.beginGp == 0 && Unmapped(p) && os.munmapOk ==> Unmapped(r.pool)
    ensures r.pool.slotSize == p.slotSize
  {
    var p1 := WithPageSize(p, os);
    if p1.beginGp != 0 then BoolStep(false, p1)
    else
      match os.mmap
      case MapFailed => BoolStep(false, p1)
      case Mapped(b) =>
        var q := Reserved(p1, b, RequestedPages(pgs));
        var c := CommitPage(q, os, q.allocationArea);
        if c.ok then BoolStep(true, c.pool)
        else BoolStep(false, DeinitPool(c.pool, os).pool)
  }

  /** `init_pool` as written: when `mmap` fails, `begin_gp` keeps the
      `MAP_FAILED` address, so the arena looks initialised from then on. */
  function InitPoolAsWritten(p: Pool, os: Os, pgs: nat): (r: BoolStep)
    ensures os.mmap.MapFailed? && p.beginGp == 0 ==> !r.ok && r.pool.beginGp == MapFailedAddr
    ensures os.mmap.Mapped? || p.beginGp != 0 ==> r == InitPool(p, os, pgs)
  {
    var p1 := WithPageSize(p, os);
    if p1.beginGp == 0 && os.mmap.MapFailed? then BoolStep(false, p1.(beginGp := MapFailedAddr))
    else InitPool(p, os, pgs)
  }

  /** The address of the last byte of a block that ends just before slot `k`;
      the subtraction is on a 64-bit integer. */
  function EndByte(p: Pool, k: nat): nat {
    SizeT(SlotAddr(p, k) - 1)
  }

  /** The part of `get_allocation` after the arena is known to be mapped:
      refuse when fewer than `n` slots are free, commit the pages up to the
      last byte of the block, then hand out the slot at the bump pointer. */
  function BumpAllocate(p: Pool, os: Os, n: nat): (r: PtrStep)
    requires p.pageSize > 0
    ensures r.pool.slotSize == p.slotSize
    ensures p.freeSlotsLeft < n ==> r == PtrStep(0, p)
    ensures r.ptr != 0 || p.allocationArea > 0 ==>
      (r.ptr != 0 <==> n <= p.freeSlotsLeft && CheckedRangeCommitFixed(p, os, EndByte(p, p.occupiedSlots + n)).ok)
    ensures r.ptr != 0 ==> r.ptr == SlotAddr(p, p.occupiedSlots)
    ensures r.ptr != 0 || p.allocationArea > 0 ==>
      var c := CheckedRangeCommitFixed(p, os, EndByte(p, p.occupiedSlots + n));
      r.pool == if r.ptr != 0
        then c.pool.(occupiedSlots := SizeT(p.occupiedSlots + n), freeSlotsLeft := p.freeSlotsLeft - n)
        else p.(firstNotCommitted := r.pool.firstNotCommitted)
  {
    if p.freeSlotsLeft < n then PtrStep(0, p)
    else
      var c := CheckedRangeCommitFixed(p, os, EndByte(p, p.occupiedSlots + n));
      if !c.ok then PtrStep(0, c.pool)
      else PtrStep(SlotAddr(p, p.occupiedSlots),
                   c.pool.(occupiedSlots := SizeT(p.occupiedSlots + n), freeSlotsLeft := p.freeSlotsLeft - n))
  }

  /** `get_allocation`: initialise lazily with the default page count, then
      bump-allocate `n` slots. */
  function GetAllocation(p: Pool, os: Os, n: nat): (r: PtrStep)
    requires PageSizeKnown(p)
    ensures r.pool.slotSize == p.slotSize
    ensures p.beginGp != 0 ==> r == BumpAllocate(p, os, n)
    ensures p.beginGp == 0 && InitPool(p, os, 0).ok ==> r == BumpAllocate(InitPool(p, os, 0).pool, os, n)
    ensures p.beginGp == 0 && !InitPool(p, os, 0).ok ==> r == PtrStep(0, InitPool(p, os, 0).pool)
  {
    if p.beginGp == 0 then
      var i := InitPool(p, os, 0);
      if !i.ok then PtrStep(0, i.pool) else BumpAllocate(i.pool, os, n)
    else BumpAllocate(p, os, n)
  }

  /** `extend_allocation`: grow the block at `ptr` from `oldN` to `newN` slots
      in place. Only the trailing block can grow: its end must be the bump
      pointer. The slot delta is a `size_t` difference, so `newN < oldN` wraps
      to a huge request. */
  function ExtendAllocation(p: Pool, os: Os, ptr: nat, oldN: nat, newN: nat): (r: BoolStep)
    requires PageSizeKnown(p)
    ensures r.pool.slotSize == p.slotSize
    ensures ptr == 0 || p.beginGp == 0 ==> r == BoolStep(false, p)
    ensures ptr + oldN * p.slotSize != SlotAddr(p, p.occupiedSlots) ==> r == BoolStep(false, p)
    ensures !r.ok ==> r.pool == p.(firstNotCommitted := r.pool.firstNotCommitted)
    ensures r.ok ==>
      && r.pool.occupiedSlots == SizeT(p.occupiedSlots + SizeT(newN - oldN))
      && r.pool.freeSlotsLeft + SizeT(newN - oldN) == p.freeSlotsLeft
  {
    var delta := SizeT(newN - oldN);
    if ptr == 0 || p.beginGp == 0 then BoolStep(false, p)
    else if p.freeSlotsLeft < delta then BoolStep(false, p)
    else if ptr + oldN * p.slotSize != SlotAddr(p, p.occupiedSlots) then BoolStep(false, p)
    else
      var c := CheckedRangeCommitFixed(p, os, EndByte(p, p.occupiedSlots + delta));
      if !c.ok then BoolStep(false, c.pool)
      else BoolStep(true, c.pool.(occupiedSlots := SizeT(p.occupiedSlots + delta), freeSlotsLeft := p.freeSlotsLeft - delta))
  }

  /** `delete_allocation`: pure slot accounting. Neither the pointer nor the
      count is checked against any allocation, and the bump pointer moves back
      by `n` whichever block is freed. */
  function DeleteAllocation(p: Pool, ptr: nat, n: nat): (r: BoolStep)
    ensures r.ok <==> ptr != 0 && p.beginGp != 0
    ensures !r.ok ==> r.pool == p
    ensures r.ok ==> r.pool == p.(occupiedSlots := SizeT(p.occupiedSlots - n), freeSlotsLeft := SizeT(p.freeSlotsLeft + n))
  {
    if ptr == 0 || p.beginGp == 0 then BoolStep(false, p)
    else BoolStep(true, p.(occupiedSlots := SizeT(p.occupiedSlots - n), freeSlotsLeft := SizeT(p.freeSlotsLeft + n)))
  }
}

=== FILE: arena_properties.dfy ===
/** Properties of the arena `mem_pool`: the layout `init_pool` sets up and every
    operation keeps, containment of every block in the usable region, bump
    allocation, extend-in-place and its limits, and the consequences of freeing
    by counter adjustment alone. */
module ArenaProperties {
  import opened Common
  import opened Platform
  import opened Arena

  // ---------------------------------------------------------------------
  // Arithmetic helpers
  // ---------------------------------------------------------------------

  /** A block of `k` slots starting at slot `j` fits under the trailing guard
      page when `j + k` does not exceed the arena's capacity. */
  lemma SlotsFitUnderGuard(p: Pool, k: nat)
    requires Layout(p)
    requires k <= Capacity(p)
    ensures SlotAddr(p, k) <= p.endGp
  {
    var usable := (p.pagesMmaped - 2) * p.pageSize;
    DivMulLe(usable, p.slotSize);
    MulMono(k, Capacity(p), p.slotSize);
    MulSucc(p.pagesMmaped - 2, p.pageSize);
  }

  lemma CapacityBelowSizeMax(p: Pool)
    requires Layout(p)
    ensures Capacity(p) < SizeMax
  {
    var usable := (p.pagesMmaped - 2) * p.pageSize;
    MulSucc(p.pagesMmaped - 2, p.pageSize);
    assert usable < SizeMax;
  }

  // ---------------------------------------------------------------------
  // init_pool / deinit_pool
  // ---------------------------------------------------------------------

  /** `init_pool` succeeds exactly when the arena is unmapped, `mmap` grants
      the mapping, the mapping has room for a usable page between the two guard
      pages, and `mprotect` accepts that page. In particular `init_pool(1)`
      always fails. */
  lemma {:induction false} InitPoolSucceedsIff(p: Pool, os: Os, pgs: nat)
    ensures InitPool(p, os, pgs).ok <==>
      && p.beginGp == 0 && os.mmap.Mapped? && RequestedPages(pgs) >= 2
      && MprotectOk(os, os.mmap.addr + WithPageSize(p, os).pageSize)
  {
    var p1 := WithPageSize(p, os);
    if p1.beginGp == 0 && os.mmap.Mapped? {
      var n := RequestedPages(pgs);
      var q := Reserved(p1, os.mmap.addr, n);
      if n >= 2 {
        MulMono(1, n - 1, p1.pageSize);
      } else {
        assert q.endGp == os.mmap.addr;
      }
    }
  }

  /** A successful `init_pool` on an unmapped arena lays out the mapping as
      documented: slot 0 one page past the leading guard page, the trailing
      guard page last, nothing occupied, `(pages - 2) * pagesize / slot` free
      slots and the frontier one page past slot 0. */
  lemma {:induction false} InitPoolLayout(p: Pool, os: Os, pgs: nat)
    requires p.beginGp == 0
    requires MappingFits(os, RequestedPages(pgs), WithPageSize(p, os).pageSize)
    ensures InitPool(p, os, pgs).ok ==>
      var q := InitPool(p, os, pgs).pool;
      && Layout(q)
      && q.beginGp == os.mmap.addr
      && q.allocationArea == q.beginGp + q.pageSize
      && q.endGp == q.beginGp + (RequestedPages(pgs) - 1) * q.pageSize
      && q.occupiedSlots == 0
      && q.freeSlotsLeft == (RequestedPages(pgs) - 2) * q.pageSize / q.slotSize
      && q.firstNotCommitted == q.allocationArea + q.pageSize
  {
    if InitPool(p, os, pgs).ok {
      InitPoolSucceedsIff(p, os, pgs);
      var p1 := WithPageSize(p, os);
      var n := RequestedPages(pgs);
      var b := os.mmap.addr;
      var ps := p1.pageSize;
      var q := InitPool(p, os, pgs).pool;
      MulSucc(n - 1, ps);
      MulSucc(n - 2, ps);
      MulSucc(1, ps);
      MulMono(2, n, ps);
      assert n * ps - 2 * ps == (n - 2) * ps;
      assert q.freeSlotsLeft == (n - 2) * ps / p.slotSize;
      assert Layout(q);
    }
  }

  /** The arena invariant survives `init_pool` whenever the host's `munmap`
      works (a failed first commit releases the mapping again). */
  lemma InitPoolKeepsValid(p: Pool, os: Os, pgs: nat)
    requires Valid(p)
    requires MappingFits(os, RequestedPages(pgs), WithPageSize(p, os).pageSize)
    requires os.munmapOk
    ensures Valid(InitPool(p, os, pgs).pool)
  {
    if p.beginGp == 0 {
      InitPoolLayout(p, os, pgs);
    }
  }

  /** `init_pool(2)` succeeds with no usable slot, and its first commit makes the
      trailing guard page itself readable and writable: `commit_page` accepts
      `end_gp`. */
  lemma InitTwoPagesCommitsGuardPage(p: Pool, os: Os)
    requires p.beginGp == 0
    requires MappingFits(os, 2, WithPageSize(p, os).pageSize)
    requires InitPool(p, os, 2).ok
    ensures var q := InitPool(p, os, 2).pool;
      Capacity(q) == 0 && q.allocationArea == q.endGp && q.firstNotCommitted == q.endGp + q.pageSize
  {
    InitPoolLayout(p, os, 2);
  }

  /** Teardown succeeds once; a second teardown fails and changes nothing; and
      a later `init_pool` can succeed again on a fresh mapping. */
  lemma {:induction false} TeardownThenReinit(p: Pool, os: Os, os2: Os, pgs: nat)
    requires Layout(p) && os.munmapOk
    requires os2.mmap.Mapped? && RequestedPages(pgs) >= 2
    requires MprotectOk(os2, os2.mmap.addr + p.pageSize)
    requires MappingFits(os2, RequestedPages(pgs), p.pageSize)
    ensures var d := DeinitPool(p, os);
      && d.ok && Unmapped(d.pool)
      && DeinitPool(d.pool, os) == BoolStep(false, d.pool)
      && InitPool(d.pool, os2, pgs).ok
      && Layout(InitPool(d.pool, os2, pgs).pool)
  {
    var d := DeinitPool(p, os);
    InitPoolSucceedsIff(d.pool, os2, pgs);
    InitPoolLayout(d.pool, os2, pgs);
  }

  /** As written, a failed `mmap` leaves `MAP_FAILED` in `begin_gp`: every later
      `init_pool` is refused, whatever the host answers, and the arena hands
      out nothing. Neither call changes the arena, so it stays in this state
      for good. */
  lemma FailedMmapSticksAsWritten(p: Pool, os: Os, os2: Os, pgs: nat, pgs2: nat, n: nat)
    requires Unmapped(p) && os.mmap.MapFailed?
    ensures var q := InitPoolAsWritten(p, os, pgs).pool;
      && !InitPoolAsWritten(p, os, pgs).ok
      && q.beginGp == MapFailedAddr
      && !InitPoolAsWritten(q, os2, pgs2).ok
      && InitPoolAsWritten(q, os2, pgs2).pool == q
      && GetAllocation(q, os2, n).ptr == 0
      && GetAllocation(q, os2, n).pool == q
  {
  }

  /** With a failed `mmap` leaving the arena unmapped, a later `init_pool`
      succeeds as soon as the host grants the mapping. */
  lemma FailedMmapRecovers(p: Pool, os: Os, os2: Os, pgs: nat, pgs2: nat)
    requires Unmapped(p) && os.mmap.MapFailed?
    requires os2.mmap.Mapped? && RequestedPages(pgs2) >= 2
    requires MprotectOk(os2, os2.mmap.addr + WithPageSize(p, os).pageSize)
    ensures !InitPool(p, os, pgs).ok && Unmapped(InitPool(p, os, pgs).pool)
    ensures InitPool(InitPool(p, os, pgs).pool, os2, pgs2).ok
  {
    InitPoolSucceedsIff(InitPool(p, os, pgs).pool, os2, pgs2);
  }

  // ---------------------------------------------------------------------
  // commit_page / checked_range_commit
  // ---------------------------------------------------------------------

  /** The bounds test of `commit_page` checks neither alignment nor the
      trailing guard page: on a laid-out arena with at least one usable page
      it lets the address one byte past slot 0 through, and when the host
      accepts that address the frontier lands strictly between two page
      starts; the guard page `end_gp` is committed alike. */
  lemma CommitPageLaxBounds(p: Pool, os: Os)
    requires Layout(p) && p.pagesMmaped >= 3 && p.pageSize >= 2
    requires MprotectOk(os, p.allocationArea + 1) && MprotectOk(os, p.endGp)
    ensures var c := CommitPage(p, os, p.allocationArea + 1);
      && c.ok
      && p.allocationArea + p.pageSize < c.pool.firstNotCommitted < p.allocationArea + 2 * p.pageSize
    ensures CommitPage(p, os, p.endGp).pool.firstNotCommitted == p.endGp + p.pageSize
  {
    MulMono(2, p.pagesMmaped - 1, p.pageSize);
  }

  /** Every page strictly inside the reservation passes the range checks, so
      when `mprotect` refuses none, committing up to a byte below `end_gp`
      succeeds. */
  lemma {:induction false} CommitLoopSucceeds(p: Pool, os: Os, pg: nat)
    requires p.pageSize > 0
    requires p.beginGp + p.pageSize <= p.firstNotCommitted
    requires pg < p.endGp
    requires os.protectRefused == {}
    ensures CommitLoop(p, os, pg, true).ok
    decreases pg + 1 - p.firstNotCommitted
  {
    if p.firstNotCommitted <= pg {
      var c := CommitPage(p, os, p.firstNotCommitted);
      assert c.ok;
      CommitLoopSucceeds(c.pool, os, pg);
    }
  }

  /** As written, `checked_range_commit` reports success for an end byte that
      starts the first uncommitted page, without committing it. Just after
      `init_pool` with one-byte slots, the block of `pagesize + 1` slots ends
      on exactly that byte. */
  lemma RangeCommitMissesPageStartAsWritten(p: Pool, os: Os)
    requires Layout(p) && p.slotSize == 1 && p.occupiedSlots == 0
    requires p.firstNotCommitted == p.allocationArea + p.pageSize
    requires p.pageSize < p.freeSlotsLeft
    ensures var endByte := EndByte(p, p.occupiedSlots + p.pageSize + 1);
      && endByte == p.firstNotCommitted
      && CheckedRangeCommit(p, os, endByte) == BoolStep(true, p)
      && !(endByte < CheckedRangeCommit(p, os, endByte).pool.firstNotCommitted)
  {
    EndByteOnLayout(p, p.pageSize + 1);
  }

  /** The corrected range commit, on success, leaves the end byte on a
      committed page; and a repeated call is a no-op that keeps the frontier. */
  lemma RangeCommitFixedCoversEndByte(p: Pool, os: Os, pg: nat)
    requires p.pageSize > 0
    ensures var c := CheckedRangeCommitFixed(p, os, pg);
      && (c.ok ==> pg < c.pool.firstNotCommitted)
      && (c.ok ==> CheckedRangeCommitFixed(c.pool, os, pg) == BoolStep(true, c.pool))
      && p.firstNotCommitted <= c.pool.firstNotCommitted
  {
  }

  // ---------------------------------------------------------------------
  // get_allocation
  // ---------------------------------------------------------------------

  /** Slot addresses are linear in the slot index. */
  lemma SlotAddrAdd(p: Pool, j: nat, k: nat)
    ensures SlotAddr(p, j + k) == SlotAddr(p, j) + k * p.slotSize
  {
    assert (j + k) * p.slotSize == j * p.slotSize + k * p.slotSize;
  }

  /** The layout survives a step that moves slots between the occupied and free
      counts, advances the frontier within the reservation, and keeps the
      occupied slots on committed pages. */
  lemma LayoutFrame(p: Pool, q: Pool)
    requires Layout(p)
    requires q == p.(occupiedSlots := q.occupiedSlots, freeSlotsLeft := q.freeSlotsLeft,
                     firstNotCommitted := q.firstNotCommitted)
    requires q.occupiedSlots + q.freeSlotsLeft == p.occupiedSlots + p.freeSlotsLeft
    requires p.firstNotCommitted <= q.firstNotCommitted <= p.endGp + p.pageSize
    requires SlotAddr(q, q.occupiedSlots) <= q.firstNotCommitted
    ensures Layout(q)
  {
    assert Capacity(q) == Capacity(p);
  }

  /** On a laid-out arena the bump allocation never wraps a counter: it either
      hands out the `n` slots at the bump pointer, moving them from free to
      occupied, with every byte of the block on a committed page; or it hands
      out nothing and at most advances the frontier. Either way the layout
      survives. */
  lemma BumpOnLayout(p: Pool, os: Os, n: nat)
    requires Layout(p)
    ensures var r := BumpAllocate(p, os, n);
      && Layout(r.pool)
      && (r.ptr != 0 <==> n <= p.freeSlotsLeft && CheckedRangeCommitFixed(p, os, EndByte(p, p.occupiedSlots + n)).ok)
      && (r.ptr != 0 ==>
            && r.ptr == SlotAddr(p, p.occupiedSlots)
            && r.pool == p.(occupiedSlots := p.occupiedSlots + n, freeSlotsLeft := p.freeSlotsLeft - n,
                            firstNotCommitted := r.pool.firstNotCommitted)
            && SlotAddr(p, p.occupiedSlots + n) <= r.pool.firstNotCommitted)
      && (r.ptr == 0 ==> r.pool == p.(firstNotCommitted := r.pool.firstNotCommitted))
  {
    var r := BumpAllocate(p, os, n);
    if n <= p.freeSlotsLeft {
      EndByteOnLayout(p, n);
      var c := CheckedRangeCommitFixed(p, os, EndByte(p, p.occupiedSlots + n));
      if c.ok {
        assert r.pool == c.pool.(occupiedSlots := p.occupiedSlots + n, freeSlotsLeft := p.freeSlotsLeft - n);
        LayoutFrame(p, r.pool);
      } else {
        assert r.pool == c.pool;
        LayoutFrame(p, r.pool);
      }
    } else {
      LayoutFrame(p, r.pool);
    }
  }

  /** With room for `n` more slots, the block's end byte and the bump pointer
      after it are exact: no `size_t` wrap. */
  lemma EndByteOnLayout(p: Pool, n: nat)
    requires Layout(p) && n <= p.freeSlotsLeft
    ensures SlotAddr(p, p.occupiedSlots + n) <= p.endGp
    ensures EndByte(p, p.occupiedSlots + n) + 1 == SlotAddr(p, p.occupiedSlots + n)
    ensures SizeT(p.occupiedSlots + n) == p.occupiedSlots + n
  {
    CapacityBelowSizeMax(p);
    SlotsFitUnderGuard(p, p.occupiedSlots + n);
  }

  /** The arena invariant survives `get_allocation`, including its lazy
      initialisation. */
  lemma GetAllocationKeepsValid(p: Pool, os: Os, n: nat)
    requires Valid(p) && PageSizeKnown(p)
    requires p.beginGp == 0 ==> os.munmapOk && MappingFits(os, DefaultPages, WithPageSize(p, os).pageSize)
    ensures Valid(GetAllocation(p, os, n).pool)
  {
    if p.beginGp == 0 {
      InitPoolKeepsValid(p, os, 0);
      var i := InitPool(p, os, 0);
      if i.ok {
        BumpOnLayout(i.pool, os, n);
      }
    } else {
      BumpOnLayout(p, os, n);
    }
  }

  /** Every block `get_allocation` hands out lies in the usable region between
      the guard pages, on committed pages, and the corrected `owns` accepts
      each of its bytes while the `owns` of the source accepts none. The
      arena's `occupied + free` total is unchanged. */
  lemma GetAllocationContained(p: Pool, os: Os, n: nat)
    requires Layout(p)
    ensures var r := GetAllocation(p, os, n);
      && r.pool.occupiedSlots + r.pool.freeSlotsLeft == p.occupiedSlots + p.freeSlotsLeft
      && (r.ptr != 0 ==>
        && p.allocationArea <= r.ptr
        && r.ptr + n * p.slotSize <= p.endGp
        && r.ptr + n * p.slotSize <= r.pool.firstNotCommitted
        && (forall v :: r.ptr <= v < r.ptr + n * p.slotSize ==> OwnsFixed(r.pool, v) && !Owns(r.pool, v)))
  {
    var r := GetAllocation(p, os, n);
    BumpOnLayout(p, os, n);
    if r.ptr != 0 {
      BlockInRegion(p, r.pool, r.ptr, n);
    }
  }

  /** The `n` slots at the bump pointer of a laid-out arena lie in the usable
      region and on the pages committed in `q`, an arena with the same
      bounds; every byte of them is owned by the corrected `owns` of `q`. */
  lemma BlockInRegion(p: Pool, q: Pool, ptr: nat, n: nat)
    requires Layout(p) && n <= p.freeSlotsLeft && ptr == SlotAddr(p, p.occupiedSlots)
    requires q.beginGp == p.beginGp && q.allocationArea == p.allocationArea && q.endGp == p.endGp
    requires SlotAddr(p, p.occupiedSlots + n) <= q.firstNotCommitted
    ensures p.allocationArea <= ptr
    ensures ptr + n * p.slotSize <= p.endGp && ptr + n * p.slotSize <= q.firstNotCommitted
    ensures forall v :: ptr <= v < ptr + n * p.slotSize ==> OwnsFixed(q, v) && !Owns(q, v)
  {
    var o := p.occupiedSlots;
    SlotsFitUnderGuard(p, o + n);
    SlotAddrAdd(p, o, n);
  }

  /** Slot 0's first byte, the start of the first block ever handed out, is
      owned by the corrected `owns`; the strict lower bound of the source
      rejects it whatever the upper bound, so correcting only
      `begin_gp` to `end_gp` would still refuse it. */
  lemma OwnsSlotZeroFirstByte(p: Pool)
    requires Layout(p) && p.allocationArea < p.endGp
    ensures OwnsFixed(p, p.allocationArea)
    ensures !Owns(p, p.allocationArea)
  {
  }

  /** A laid-out arena with `n` free slots, whose host refuses no page, hands
      out the block at the bump pointer and moves `n` slots from free to
      occupied. */
  lemma GetAllocationSucceedsWithRoom(p: Pool, os: Os, n: nat)
    requires Layout(p) && n <= p.freeSlotsLeft && os.protectRefused == {}
    ensures var r := GetAllocation(p, os, n);
      && r.ptr == SlotAddr(p, p.occupiedSlots)
      && Layout(r.pool)
      && r.pool.occupiedSlots == p.occupiedSlots + n
      && r.pool.freeSlotsLeft == p.freeSlotsLeft - n
      && SlotAddr(r.pool, r.pool.occupiedSlots) == r.ptr + n * p.slotSize
      && r.pool.allocationArea == p.allocationArea && r.pool.slotSize == p.slotSize
  {
    BumpOnLayout(p, os, n);
    EndByteOnLayout(p, n);
    CommitLoopSucceeds(p, os, EndByte(p, p.occupiedSlots + n));
    SlotAddrAdd(p, p.occupiedSlots, n);
  }

  /** Bump allocation: two consecutive successful allocations are adjacent. */
  lemma ConsecutiveAllocationsAdjacent(p: Pool, os: Os, a: nat, b: nat)
    requires Layout(p)
    ensures var r1 := GetAllocation(p, os, a);
      var r2 := GetAllocation(r1.pool, os, b);
      r1.ptr != 0 && r2.ptr != 0 ==> r2.ptr == r1.ptr + a * p.slotSize
  {
    var r1 := GetAllocation(p, os, a);
    BumpOnLayout(p, os, a);
    BumpOnLayout(r1.pool, os, b);
    SlotAddrAdd(p, p.occupiedSlots, a);
  }

  // ---------------------------------------------------------------------
  // extend_allocation
  // ---------------------------------------------------------------------

  /** A request to shrink a block of the arena wraps to a delta of nearly 2^64
      slots, more than are free, so it fails and changes nothing. */
  lemma ExtendShrinkFails(p: Pool, os: Os, ptr: nat, oldN: nat, newN: nat)
    requires Layout(p) && p.allocationArea <= ptr && newN < oldN
    ensures ExtendAllocation(p, os, ptr, oldN, newN) == BoolStep(false, p)
  {
    CapacityBelowSizeMax(p);
    if ptr + oldN * p.slotSize == SlotAddr(p, p.occupiedSlots) {
      if oldN > p.occupiedSlots {
        MulMono(p.occupiedSlots + 1, oldN, p.slotSize);
        MulSucc(p.occupiedSlots, p.slotSize);
        assert false;
      }
      assert SizeT(newN - oldN) > p.freeSlotsLeft;
    }
  }

  /** On a laid-out arena a request to grow a block by `d = newN - oldN` slots
      succeeds exactly when the block is the trailing one, `d` slots are free
      and their pages can be committed; it then moves `d` slots from free to
      occupied without wrapping. Either way the layout survives. */
  lemma ExtendOnLayout(p: Pool, os: Os, ptr: nat, oldN: nat, newN: nat)
    requires Layout(p) && oldN <= newN < SizeMax
    ensures var r := ExtendAllocation(p, os, ptr, oldN, newN);
      var d := newN - oldN;
      && Layout(r.pool)
      && (r.ok <==>
            && ptr != 0 && d <= p.freeSlotsLeft && ptr + oldN * p.slotSize == SlotAddr(p, p.occupiedSlots)
            && CheckedRangeCommitFixed(p, os, EndByte(p, p.occupiedSlots + d)).ok)
      && (r.ok ==>
            && r.pool == p.(occupiedSlots := p.occupiedSlots + d, freeSlotsLeft := p.freeSlotsLeft - d,
                            firstNotCommitted := r.pool.firstNotCommitted)
            && SlotAddr(p, p.occupiedSlots + d) <= r.pool.firstNotCommitted)
      && (!r.ok ==> r.pool == p.(firstNotCommitted := r.pool.firstNotCommitted))
  {
    var r := ExtendAllocation(p, os, ptr, oldN, newN);
    var d := newN - oldN;
    if ptr != 0 && d <= p.freeSlotsLeft && ptr + oldN * p.slotSize == SlotAddr(p, p.occupiedSlots) {
      EndByteOnLayout(p, d);
      var c := CheckedRangeCommitFixed(p, os, EndByte(p, p.occupiedSlots + d));
      if c.ok {
        assert r.pool == c.pool.(occupiedSlots := p.occupiedSlots + d, freeSlotsLeft := p.freeSlotsLeft - d);
        LayoutFrame(p, r.pool);
      } else {
        assert r.pool == c.pool;
        LayoutFrame(p, r.pool);
      }
    } else {
      assert r == BoolStep(false, p);
    }
  }

  /** The arena invariant survives `extend_allocation` of any block of the
      arena. */
  lemma ExtendKeepsValid(p: Pool, os: Os, ptr: nat, oldN: nat, newN: nat)
    requires Valid(p) && PageSizeKnown(p)
    requires p.beginGp != 0 ==> p.allocationArea <= ptr
    requires newN < SizeMax
    ensures Valid(ExtendAllocation(p, os, ptr, oldN, newN).pool)
  {
    if p.beginGp != 0 {
      if newN < oldN {
        ExtendShrinkFails(p, os, ptr, oldN, newN);
      } else {
        ExtendOnLayout(p, os, ptr, oldN, newN);
      }
    }
  }

  /** The trailing block of a laid-out arena with `d` free slots, whose host
      refuses no page, grows in place by `d` slots. */
  lemma ExtendSucceedsWithRoom(p: Pool, os: Os, ptr: nat, oldN: nat, d: nat)
    requires Layout(p) && os.protectRefused == {}
    requires ptr != 0 && ptr + oldN * p.slotSize == SlotAddr(p, p.occupiedSlots)
    requires d <= p.freeSlotsLeft && oldN + d < SizeMax
    ensures var e := ExtendAllocation(p, os, ptr, oldN, oldN + d);
      && e.ok && Layout(e.pool)
      && e.pool.occupiedSlots == p.occupiedSlots + d
      && e.pool.freeSlotsLeft == p.freeSlotsLeft - d
      && e.pool.allocationArea == p.allocationArea && e.pool.slotSize == p.slotSize
  {
    EndByteOnLayout(p, d);
    CommitLoopSucceeds(p, os, EndByte(p, p.occupiedSlots + d));
    ExtendOnLayout(p, os, ptr, oldN, oldN + d);
  }

  /** The address arithmetic of extend-in-place: a block of `a` slots at the
      bump pointer, grown by `b` slots, is followed by the block at the new
      bump pointer, `a + b` slots further on. */
  lemma InPlaceChain(p: Pool, r1: PtrStep, e: BoolStep, r2: PtrStep, a: nat, b: nat)
    requires r1.ptr == SlotAddr(p, p.occupiedSlots)
    requires r1.pool.occupiedSlots == p.occupiedSlots + a
    requires e.pool.occupiedSlots == r1.pool.occupiedSlots + b
    requires e.pool.allocationArea == p.allocationArea && e.pool.slotSize == p.slotSize
    requires r2.ptr == SlotAddr(e.pool, e.pool.occupiedSlots)
    ensures e.pool.occupiedSlots == p.occupiedSlots + a + b
    ensures r2.ptr == r1.ptr + (a + b) * p.slotSize
  {
    SlotAddrAdd(p, p.occupiedSlots, a + b);
  }

  /** Extend-in-place: the trailing block of `a` slots grows to `a + b` slots
      without moving, and the next block starts right after the grown one. */
  lemma ExtendInPlace(p: Pool, os: Os, a: nat, b: nat, c: nat)
    requires Layout(p) && os.protectRefused == {}
    requires a + b + c <= p.freeSlotsLeft
    ensures var r1 := GetAllocation(p, os, a);
      var e := ExtendAllocation(r1.pool, os, r1.ptr, a, a + b);
      var r2 := GetAllocation(e.pool, os, c);
      && r1.ptr == SlotAddr(p, p.occupiedSlots)
      && e.ok
      && e.pool.occupiedSlots == p.occupiedSlots + a + b
      && r2.ptr == r1.ptr + (a + b) * p.slotSize
  {
    CapacityBelowSizeMax(p);
    GetAllocationSucceedsWithRoom(p, os, a);
    var r1 := GetAllocation(p, os, a);
    SlotAddrAdd(p, p.occupiedSlots, a);
    ExtendSucceedsWithRoom(r1.pool, os, r1.ptr, a, b);
    var e := ExtendAllocation(r1.pool, os, r1.ptr, a, a + b);
    GetAllocationSucceedsWithRoom(e.pool, os, c);
    InPlaceChain(p, r1, e, GetAllocation(e.pool, os, c), a, b);
  }

  /** While a later block handed out after it is held, a block cannot be
      extended, whatever the sizes asked for. */
  lemma ExtendAfterInterveningFails(p: Pool, os: Os, a: nat, b: nat, newN: nat)
    requires Layout(p) && b > 0
    ensures var r1 := GetAllocation(p, os, a);
      var r2 := GetAllocation(r1.pool, os, b);
      r1.ptr != 0 && r2.ptr != 0 ==>
        ExtendAllocation(r2.pool, os, r1.ptr, a, newN) == BoolStep(false, r2.pool)
  {
    var r1 := GetAllocation(p, os, a);
    var r2 := GetAllocation(r1.pool, os, b);
    if r1.ptr != 0 && r2.ptr != 0 {
      BumpOnLayout(p, os, a);
      BumpOnLayout(r1.pool, os, b);
      var o := p.occupiedSlots;
      SlotAddrAdd(p, o, a);
      SlotAddrAdd(p, o + a, b);
      assert r1.ptr + a * p.slotSize < SlotAddr(r2.pool, r2.pool.occupiedSlots) by {
        MulMono(1, b, p.slotSize);
      }
    }
  }

  // ---------------------------------------------------------------------
  // delete_allocation
  // ---------------------------------------------------------------------

  /** Freeing at most the occupied slot count keeps the arena invariant. */
  lemma DeleteKeepsValid(p: Pool, ptr: nat, n: nat)
    requires Valid(p) && n <= p.occupiedSlots
    ensures Valid(DeleteAllocation(p, ptr, n).pool)
  {
    if p.beginGp != 0 {
      CapacityBelowSizeMax(p);
      MulMono(p.occupiedSlots - n, p.occupiedSlots, p.slotSize);
    }
  }

  /** Freeing more slots than are occupied wraps the `size_t` counter: the
      occupied count becomes `2^64` minus the overshoot, more than the arena
      holds whenever the overshoot is below `2^64 - capacity`, and the arena
      invariant is lost. */
  lemma DeleteTooManyWraps(p: Pool, ptr: nat, n: nat)
    requires Layout(p) && ptr != 0 && p.occupiedSlots < n
    requires n - p.occupiedSlots < SizeMax - Capacity(p)
    ensures var q := DeleteAllocation(p, ptr, n).pool;
      && q.occupiedSlots == SizeMax - (n - p.occupiedSlots)
      && q.occupiedSlots > Capacity(p)
      && !Valid(q)
  {
    var q := DeleteAllocation(p, ptr, n).pool;
    assert Capacity(q) == Capacity(p);
  }

  /** Freeing an interior block rewinds the bump pointer: after blocks A (`a`
      slots) and B (`b` slots), freeing A makes the next block C (`c` slots)
      start `b` slots into the arena's former A, and C overlaps the still
      live B exactly when `a < b + c`. */
  lemma DeleteInteriorThenAllocateOverlaps(p: Pool, os: Os, a: nat, b: nat, c: nat)
    requires Layout(p) && a > 0 && b > 0 && c > 0
    ensures var A := GetAllocation(p, os, a);
      var B := GetAllocation(A.pool, os, b);
      var D := DeleteAllocation(B.pool, A.ptr, a);
      var C := GetAllocation(D.pool, os, c);
      A.ptr != 0 && B.ptr != 0 && C.ptr != 0 ==>
        && C.ptr == A.ptr + b * p.slotSize
        && (C.ptr < B.ptr + b * p.slotSize && B.ptr < C.ptr + c * p.slotSize <==> a < b + c)
  {
    var A := GetAllocation(p, os, a);
    var B := GetAllocation(A.pool, os, b);
    if A.ptr != 0 && B.ptr != 0 {
      BumpOnLayout(p, os, a);
      BumpOnLayout(A.pool, os, b);
      var D := DeleteAllocation(B.pool, A.ptr, a);
      var o := p.occupiedSlots;
      assert D.pool.occupiedSlots == o + b by {
        CapacityBelowSizeMax(p);
      }
      var C := GetAllocation(D.pool, os, c);
      SlotAddrAdd(p, o, a);
      SlotAddrAdd(p, o, b);
      assert C.ptr != 0 ==> C.ptr == A.ptr + b * p.slotSize by {
        assert SlotAddr(D.pool, o + b) == SlotAddr(p, o + b);
      }
      OverlapIff(A.ptr, a, b, c, p.slotSize);
    }
  }

  /** Blocks at `x + b*s` (`c` slots) and `x + a*s` (`b` slots) overlap exactly
      when `a < b + c`. */
  lemma OverlapIff(x: nat, a: nat, b: nat, c: nat, s: nat)
    requires a > 0 && s > 0
    ensures (x + b * s < x + a * s + b * s && x + a * s < x + b * s + c * s) <==> a < b + c
  {
    MulMono(1, a, s);
    assert (b + c) * s == b * s + c * s;
    if a < b + c { MulMono(a + 1, b + c, s); MulSucc(a, s); }
    else { MulMono(b + c, a, s); }
  }

  // ---------------------------------------------------------------------
  // The scenario: 4 pages of 4096 bytes, 8-byte slots
  // ---------------------------------------------------------------------

  /** Reserve 4 pages of 4096 bytes for 8-byte slots: 1024 slots are free.
      Allocating 10 returns slot 0; extending that block to 20 keeps it in
      place; the next 5 slots start 20 slots in. */
  lemma Scenario(b: Pos)
    requires b + 4 * 4096 <= SizeMax
    ensures var os := Os(4096, Mapped(b), {}, true);
      var i := InitPool(Fresh(8), os, 4);
      var r1 := GetAllocation(i.pool, os, 10);
      var e := ExtendAllocation(r1.pool, os, r1.ptr, 10, 20);
      var r2 := GetAllocation(e.pool, os, 5);
      && i.ok && i.pool.freeSlotsLeft == 1024
      && r1.ptr == i.pool.allocationArea && r1.pool.occupiedSlots == 10 && r1.pool.freeSlotsLeft == 1014
      && e.ok && e.pool.occupiedSlots == 20
      && r2.ptr == i.pool.allocationArea + 20 * 8
  {
    var os := Os(4096, Mapped(b), {}, true);
    var i := InitPool(Fresh(8), os, 4);
    InitPoolSucceedsIff(Fresh(8), os, 4);
    InitPoolLayout(Fresh(8), os, 4);
    assert i.pool.freeSlotsLeft == 1024;
    ExtendInPlace(i.pool, os, 10, 10, 5);
  }
}

=== FILE: common.dfy ===
/** Machine-level constants and helpers shared by the arena, the allocator
    facade and the vector: the 64-bit `size_t` domain, `PTRDIFF_MAX`, and the
    result type used for the C++ exceptions the container throws. */
module Common {

  /** 2^64: the number of values of a 64-bit `size_t`. */
  const SizeMax: nat := 0x1_0000_0000_0000_0000

  /** `PTRDIFF_MAX` on a 64-bit target. */
  const PtrdiffMax: nat := 0x7fff_ffff_ffff_ffff

  type Pos = x: nat | x > 0 witness 1

  /** The value an unsigned 64-bit computation stores: the mathematical result
      reduced modulo 2^64, so a subtraction that goes below zero wraps. */
  function SizeT(x: int): (r: nat)
    ensures r < SizeMax
    ensures 0 <= x < SizeMax ==> r == x
    ensures x < 0 && 0 <= x + SizeMax ==> r == x + SizeMax
  {
    x % SizeMax
  }

  /** The exceptions the container and the allocator facade throw, plus two
      outcomes no caller can catch: a throw escaping a `noexcept` function,
      which ends the program through `std::terminate`, and the undefined
      write of an element through the null pointer an exhausted arena hands
      back. */
  datatype Error =
    | LengthError   // std::length_error
    | BadAlloc      // std::bad_alloc
    | OutOfRange    // std::out_of_range
    | Terminated    // std::terminate: an exception left a noexcept function
    | NullStorage   // an element would be constructed at a null address

  datatype Result<+T> = Ok(value: T) | Err(error: Error)

  lemma MulSucc(n: nat, s: nat)
    ensures (n + 1) * s == n * s + s
  {
  }

  lemma MulMono(a: nat, b: nat, s: nat)
    requires a <= b
    ensures a * s <= b * s
  {
  }

  lemma DivMulLe(x: nat, s: Pos)
    ensures (x / s) * s <= x
  {
  }

  /** Integer division of a count of bytes by an object size: the largest
      number of whole objects that fit in `x` bytes. */
  function FloorDiv(x: nat, s: Pos): (q: nat)
    ensures q * s <= x < (q + 1) * s
  {
    assert x == (x / s) * s + x % s;
    MulSucc(x / s, s);
    x / s
  }

  /** `x / a` is the `k` with `k * a <= x < (k + 1) * a`. */
  lemma DivUnique(x: nat, a: Pos, k: nat)
    requires k * a <= x < k * a + a
    ensures x / a == k
  {
    var q := x / a;
    assert x == q * a + x % a;
    if q < k {
      MulMono(q + 1, k, a);
      MulSucc(q, a);
    } else if q > k {
      MulMono(k + 1, q, a);
      MulSucc(k, a);
    }
  }

  /** `k <= x / s` whenever `k * s <= x`. */
  lemma DivAtLeast(x: nat, s: Pos, k: nat)
    requires k * s <= x
    ensures k <= x / s
  {
    var q := x / s;
    assert x == q * s + x % s;
    if q < k {
      MulMono(q + 1, k, s);
      MulSucc(q, s);
    }
  }

  /** Multiplying by `s` and dividing by `s` again gives back `n`, exactly. */
  lemma MulDivCancel(n: nat, s: Pos)
    ensures n * s / s == n && n * s % s == 0
  {
    MulSucc(n, s);
    DivUnique(n * s, s, n);
  }

  lemma MulAdd(a: nat, b: nat, s: nat)
    ensures (a + b) * s == a * s + b * s
  {
  }
}

=== FILE: facade.dfy ===
/** The allocator facade `page_allocator` of allocator/page_allocator.h: a
    policy layer over one arena. It refuses oversized requests with
    `bad_alloc`, caps the number of slots by `max_size`, forwards
    `deallocate` and `extend_allocation` to the arena, and compares equal by
    element size alone. */
module PageAllocator {
  import opened Common
  import opened Platform
  import Arena

  /** The default of the `_MaxObjects` template parameter. */
  const DefaultMaxObjects: nat := 10

  /** `sizeof(T)` and `alignof(T)` of an element type. */
  datatype ElemSpec = ElemSpec(size: Pos, align: Pos)

  /** A C++ object type: its size is a multiple of its alignment. */
  type ElemType = e: ElemSpec | e.size % e.align == 0 witness ElemSpec(1, 1)

  /** `page_allocator<T, _MaxObjects>`: the arena it owns, the `objs_number`
      ceiling (0 means none) and the element type. */
  datatype Allocator = Allocator(pool: Arena.Pool, objsNumber: nat, elem: ElemType)

  /** An allocator's answer to `allocate`: the address (0 for `nullptr`) and the
      allocator afterwards. */
  datatype AllocStep = AllocStep(ptr: nat, alloc: Allocator)

  /** An allocator's answer to `extend_allocation`. */
  datatype ExtendStep = ExtendStep(ok: bool, alloc: Allocator)

  /** `sizeof(std::aligned_storage<sizeof(T), alignof(T)>::type)`: the size
      rounded up to a multiple of the alignment. */
  function AlignedSize(e: ElemSpec): nat {
    (e.size + e.align - 1) / e.align * e.align
  }

  /** The slot size of the arena is the aligned element size, and the arena
      has its page size once mapped. */
  predicate Ready(a: Allocator) {
    a.pool.slotSize == AlignedSize(a.elem) && Arena.PageSizeKnown(a.pool)
  }

  /** A default-constructed allocator: an empty arena. */
  function Fresh(elem: ElemType, objsNumber: nat): (a: Allocator)
    ensures Ready(a) && Arena.Unmapped(a.pool)
  {
    AlignedSizeOfType(elem);
    Allocator(Arena.Fresh(elem.size), objsNumber, elem)
  }

  /** `_M_max_size`: `PTRDIFF_MAX / sizeof(T)`, the most elements whose pointer
      difference is representable. */
  function TypeMaxSize(a: Allocator): (r: nat)
    ensures r * a.elem.size <= PtrdiffMax < (r + 1) * a.elem.size
  {
    FloorDiv(PtrdiffMax, a.elem.size)
  }

  /** `max_size`: the `objs_number` ceiling when there is one. */
  function MaxSize(a: Allocator): (r: nat)
    ensures a.objsNumber == 0 ==> r == TypeMaxSize(a)
    ensures a.objsNumber != 0 ==> r == a.objsNumber
  {
    if a.objsNumber != 0 then a.objsNumber else TypeMaxSize(a)
  }

  /** `allocate`: `bad_alloc` for more than `_M_max_size` objects, and
      `bad_alloc` once the arena's occupied-slot count plus one exceeds
      `max_size` (the test looks at the count, not at `n`); otherwise the
      arena's answer, which is `nullptr` when the arena is out of room. */
  function Allocate(a: Allocator, os: Os, n: nat): (r: Result<AllocStep>)
    requires Arena.PageSizeKnown(a.pool)
    ensures r.Err? <==> n > TypeMaxSize(a) || SizeT(a.pool.occupiedSlots + 1) > MaxSize(a)
    ensures r.Err? ==> r.error == BadAlloc
    ensures r.Ok? ==> r.value.alloc == a.(pool := r.value.alloc.pool)
    ensures r.Ok? ==> Arena.PageSizeKnown(r.value.alloc.pool)
    ensures r.Ok? ==> r.value.alloc.pool.slotSize == a.pool.slotSize
    ensures r.Ok? && a.pool.beginGp != 0 ==> r.value.ptr == Arena.BumpAllocate(a.pool, os, n).ptr
    ensures r.Ok? ==>
      && r.value.ptr == Arena.GetAllocation(a.pool, os, n).ptr
      && r.value.alloc.pool == Arena.GetAllocation(a.pool, os, n).pool
  {
    if n > TypeMaxSize(a) then Err(BadAlloc)
    else if SizeT(a.pool.occupiedSlots + 1) > MaxSize(a) then Err(BadAlloc)
    else
      var g := Arena.GetAllocation(a.pool, os, n);
      Ok(AllocStep(g.ptr, a.(pool := g.pool)))
  }

  /** `deallocate`: hand the block back to the arena, which only adjusts its
      counters. */
  function Deallocate(a: Allocator, p: nat, n: nat): (r: Allocator)
    ensures r == a.(pool := r.pool)
    ensures p == 0 || a.pool.beginGp == 0 ==> r == a
    ensures p != 0 && a.pool.beginGp != 0 ==>
      && r.pool.occupiedSlots == SizeT(a.pool.occupiedSlots - n)
      && r.pool.freeSlotsLeft == SizeT(a.pool.freeSlotsLeft + n)
    ensures r.pool == Arena.DeleteAllocation(a.pool, p, n).pool
  {
    a.(pool := Arena.DeleteAllocation(a.pool, p, n).pool)
  }

  /** `extend_allocation`: forwarded to the arena. */
  function Extend(a: Allocator, os: Os, p: nat, sz: nat, newSz: nat): (r: ExtendStep)
    requires Arena.PageSizeKnown(a.pool)
    ensures r.alloc == a.(pool := r.alloc.pool)
    ensures Arena.PageSizeKnown(r.alloc.pool)
    ensures r.alloc.pool.slotSize == a.pool.slotSize
    ensures r.ok == Arena.ExtendAllocation(a.pool, os, p, sz, newSz).ok
    ensures !r.ok ==> r.alloc.pool == a.pool.(firstNotCommitted := r.alloc.pool.firstNotCommitted)
    ensures r.alloc.pool == Arena.ExtendAllocation(a.pool, os, p, sz, newSz).pool
  {
    var e := Arena.ExtendAllocation(a.pool, os, p, sz, newSz);
    ExtendStep(e.ok, a.(pool := e.pool))
  }

  /** `operator==`: two allocators compare equal exactly when their aligned
      element sizes agree; the arenas are not looked at. For object types
      that is the element size itself. The operator is declared only for two
      allocators with the same `_MaxObjects`, hence the same `objs_number`. */
  function Equal(a: Allocator, b: Allocator): (r: bool)
    requires a.objsNumber == b.objsNumber
    ensures r <==> a.elem.size == b.elem.size
  {
    AlignedSizeOfType(a.elem);
    AlignedSizeOfType(b.elem);
    AlignedSize(a.elem) == AlignedSize(b.elem)
  }

  /** `operator!=`: the negation of `==`, so true exactly when the element
      sizes differ. */
  function NotEqual(a: Allocator, b: Allocator): (r: bool)
    requires a.objsNumber == b.objsNumber
    ensures r <==> !Equal(a, b)
    ensures r <==> a.elem.size != b.elem.size
  {
    !Equal(a, b)
  }

  /** `operator==` as the allocator requirements, and the comment above the
      operator, mean it: equal only when storage from one can be freed through
      the other. Every allocator owns its arena (a copy maps fresh memory), so
      that needs the same element size and the same arena. */
  function EqualFixed(a: Allocator, b: Allocator): (r: bool)
    requires a.objsNumber == b.objsNumber
    ensures r ==> Equal(a, b)
    ensures r ==> forall p: nat, n: nat :: Deallocate(b, p, n).pool == Deallocate(a, p, n).pool
  {
    Equal(a, b) && a.pool == b.pool
  }

  /** `~page_allocator`: release a mapped arena. When the host refuses to
      unmap it the destructor throws `runtime_error`; a destructor is
      implicitly `noexcept`, so that throw ends the program through
      `std::terminate` instead of reaching any caller. */
  function Destroy(a: Allocator, os: Os): (r: Result<Allocator>)
    ensures r.Err? <==> a.pool.beginGp != 0 && !os.munmapOk
    ensures r.Err? ==> r.error == Terminated
    ensures r.Ok? ==> Arena.Unmapped(r.value.pool) || (a.pool.beginGp == 0 && r.value == a)
  {
    if a.pool.beginGp != 0 then
      var d := Arena.DeinitPool(a.pool, os);
      if !d.ok then Err(Terminated) else Ok(a.(pool := d.pool))
    else Ok(a)
  }

  /** For a C++ object type the aligned size is the size itself. */
  lemma AlignedSizeOfType(e: ElemType)
    ensures AlignedSize(e) == e.size
  {
    var k := e.size / e.align;
    assert e.size == k * e.align;
    DivUnique(e.size + e.align - 1, e.align, k);
  }
}

=== FILE: facade_properties.dfy ===
/** Properties of the allocator facade: what `allocate` refuses and what it
    lets through, the round trip of `allocate` and `deallocate`, and what the
    size-based `operator==` does and does not promise. */
module PageAllocatorProperties {
  import opened Common
  import opened Platform
  import Arena
  import ArenaProperties
  import opened PageAllocator

  /** `operator==` is an equivalence relation. */
  lemma EqualIsEquivalence(a: Allocator, b: Allocator, c: Allocator)
    requires a.objsNumber == b.objsNumber == c.objsNumber
    ensures Equal(a, a)
    ensures Equal(a, b) ==> Equal(b, a)
    ensures Equal(a, b) && Equal(b, c) ==> Equal(a, c)
  {
  }

  /** Replacing either arena does not change the comparison. */
  lemma EqualIgnoresPools(a: Allocator, b: Allocator, p: Arena.Pool, q: Arena.Pool)
    requires a.objsNumber == b.objsNumber
    ensures Equal(a.(pool := p), b.(pool := q)) == Equal(a, b)
  {
  }

  /** On a laid-out arena with a count ceiling, `allocate` throws exactly when
      the request exceeds `PTRDIFF_MAX / sizeof(T)` or the arena already holds
      `objs_number` occupied slots. The size of the request is never compared
      with `max_size`. */
  lemma AllocateLimitsCount(a: Allocator, os: Os, n: nat)
    requires Arena.Layout(a.pool) && a.objsNumber != 0
    ensures Allocate(a, os, n).Err? <==> n > TypeMaxSize(a) || a.pool.occupiedSlots >= a.objsNumber
  {
    ArenaProperties.CapacityBelowSizeMax(a.pool);
  }

  /** `max_size` is where `allocate` stops: for any request within
      `PTRDIFF_MAX / sizeof(T)`, `allocate` answers without throwing exactly
      while the arena holds fewer than `max_size` occupied slots, whether the
      ceiling is `objs_number` or, with no ceiling, `PTRDIFF_MAX / sizeof(T)`. */
  lemma AllocateStopsAtMaxSize(a: Allocator, os: Os, n: nat)
    requires Arena.Layout(a.pool) && n <= TypeMaxSize(a)
    ensures Allocate(a, os, n).Ok? <==> a.pool.occupiedSlots < MaxSize(a)
  {
    ArenaProperties.CapacityBelowSizeMax(a.pool);
  }

  /** So a single request for more objects than `max_size` succeeds: with the
      default ceiling of 10 objects and an arena with room, 11 slots are handed
      out at once and the arena then counts more occupied slots than
      `max_size`. */
  lemma AllocateMoreThanMaxSize(a: Allocator, os: Os)
    requires Ready(a) && Arena.Layout(a.pool) && os.protectRefused == {}
    requires a.objsNumber == DefaultMaxObjects && a.pool.occupiedSlots == 0
    requires a.pool.freeSlotsLeft >= 11 && 11 * a.elem.size <= PtrdiffMax
    ensures var r := Allocate(a, os, 11);
      && r.Ok? && r.value.ptr != 0
      && r.value.alloc.pool.occupiedSlots == 11 > MaxSize(a)
  {
    DivAtLeast(PtrdiffMax, a.elem.size, 11);
    ArenaProperties.GetAllocationSucceedsWithRoom(a.pool, os, 11);
  }

  /** `deallocate` undoes `allocate`: after a block is handed out and handed
      back, the arena's counters are what they were (only the commit frontier
      may have advanced). */
  lemma AllocateDeallocateRoundTrip(a: Allocator, os: Os, n: nat)
    requires Arena.Layout(a.pool)
    ensures var r := Allocate(a, os, n);
      r.Ok? && r.value.ptr != 0 ==>
        var d := Deallocate(r.value.alloc, r.value.ptr, n);
        && d == a.(pool := d.pool)
        && d.pool == a.pool.(firstNotCommitted := d.pool.firstNotCommitted)
        && a.pool.firstNotCommitted <= d.pool.firstNotCommitted
  {
    ArenaProperties.BumpOnLayout(a.pool, os, n);
    ArenaProperties.CapacityBelowSizeMax(a.pool);
  }

  /** Equal allocators cannot free each other's storage, although the
      allocator requirements read equality as exactly that promise. A block
      of `n` slots from `a`, handed to an equal allocator `b` whose arena holds
      nothing, wraps `b`'s occupied count to `2^64 - n` and breaks `b`'s arena
      invariant, while `a` still counts the block as occupied. */
  lemma EqualAllocatorsNotInterchangeable(a: Allocator, b: Allocator, os: Os, n: nat)
    requires a.objsNumber == b.objsNumber && Equal(a, b)
    requires Arena.Layout(a.pool) && Arena.Layout(b.pool) && b.pool.occupiedSlots == 0
    requires 0 < n < SizeMax - Arena.Capacity(b.pool)
    ensures var r := Allocate(a, os, n);
      r.Ok? && r.value.ptr != 0 ==>
        var b2 := Deallocate(b, r.value.ptr, n);
        && b2.pool.occupiedSlots == SizeMax - n
        && !Arena.Valid(b2.pool)
        && r.value.alloc.pool.occupiedSlots == a.pool.occupiedSlots + n
  {
    var r := Allocate(a, os, n);
    ArenaProperties.BumpOnLayout(a.pool, os, n);
    ArenaProperties.CapacityBelowSizeMax(a.pool);
    if r.Ok? && r.value.ptr != 0 {
      ArenaProperties.DeleteTooManyWraps(b.pool, r.value.ptr, n);
    }
  }

  /** With the corrected comparison, an allocator equal to `a` after it
      handed out a block can free that block: the arena returns to the
      counters it had before the allocation, keeps its layout, and at most the
      commit frontier has advanced. */
  lemma EqualFixedInterchangeable(a: Allocator, b: Allocator, os: Os, n: nat)
    requires Arena.Layout(a.pool)
    ensures var r := Allocate(a, os, n);
      r.Ok? && r.value.ptr != 0 && b.objsNumber == a.objsNumber && EqualFixed(r.value.alloc, b) ==>
        var b2 := Deallocate(b, r.value.ptr, n);
        && b2.pool == a.pool.(firstNotCommitted := b2.pool.firstNotCommitted)
        && a.pool.firstNotCommitted <= b2.pool.firstNotCommitted
        && Arena.Layout(b2.pool)
  {
    var r := Allocate(a, os, n);
    AllocateDeallocateRoundTrip(a, os, n);
    ArenaProperties.BumpOnLayout(a.pool, os, n);
    if r.Ok? && r.value.ptr != 0 && b.objsNumber == a.objsNumber && EqualFixed(r.value.alloc, b) {
      var b2 := Deallocate(b, r.value.ptr, n);
      assert b2.pool == Deallocate(r.value.alloc, r.value.ptr, n).pool;
      ArenaProperties.LayoutFrame(a.pool, b2.pool);
    }
  }

  /** The destructor leaves a mapped arena unmapped when the host lets it, and
      a second teardown of the same allocator then has nothing to do. */
  lemma DestroyReleases(a: Allocator, os: Os)
    requires a.pool.beginGp != 0 && os.munmapOk
    ensures var r := Destroy(a, os);
      && r.Ok? && Arena.Unmapped(r.value.pool)
      && Destroy(r.value, os) == Ok(r.value)
  {
  }
}

=== FILE: platform.dfy ===
/** The four host services the arena consumes (`sysconf`, `mmap`, `mprotect`,
    `munmap`), as an oracle: a record of the answers the host gives during one
    modelled call. Nothing here reserves or protects real memory. */
module Platform {
  import opened Common

  /** The address `mmap` reports on failure, `(void *)-1`. */
  const MapFailedAddr: nat := SizeMax - 1

  /** Outcome of the one `mmap` call that reserves the arena. */
  datatype Mmap = MapFailed | Mapped(addr: Pos)

  /** The host's answers: the page size `sysconf(_SC_PAGE_SIZE)` reports, the
      outcome of `mmap`, the pages on which `mprotect` fails, and whether
      `munmap` succeeds. */
  datatype Os = Os(pageSize: Pos, mmap: Mmap, protectRefused: set<nat>, munmapOk: bool)

  /** `mprotect(pg, pagesize, PROT_READ | PROT_WRITE)` does not return -1. */
  predicate MprotectOk(os: Os, pg: nat) {
    pg !in os.protectRefused
  }

  /** A reservation of `pages` pages of `pageSize` bytes, if `mmap` grants it,
      lies wholly inside the 64-bit address space, as every real mapping does. */
  predicate MappingFits(os: Os, pages: nat, pageSize: nat) {
    os.mmap.Mapped? ==> os.mmap.addr + pages * pageSize <= SizeMax
  }
}

=== FILE: vector.dfy ===
/** The capacity and growth logic of `vector` in container/vector.h, over the
    page allocator. A vector is its element sequence, the address of its block
    (`_M_start`), its capacity in elements and its allocator. Where the
    allocator declares `continuous_allocator`, the vector first tries to grow
    its block in place through `extend_allocation` and only then relocates.

    Every operation returns `Err` for the exception the source throws; the
    state an exception leaves behind is not part of the model. */
module Vector {
  import opened Common
  import opened Platform
  import Arena
  import opened PageAllocator
  import opened VectorBase

  /** A vector: `_M_start`, the constructed elements, the capacity
      `end_of_storage - start` in elements, the allocator, and whether the
      allocator type declares `continuous_allocator` (which selects the
      `expander` that forwards to `extend_allocation`). */
  datatype Vec<T> = Vec(start: nat, elems: seq<T>, cap: nat, alloc: Allocator, continuous: bool)

  /** `grow`'s answer and the vector afterwards. */
  datatype GrowStep<T> = GrowStep(grown: bool, vec: Vec<T>)

  /** `_M_erase`'s answer (the position of the first element after the erased
      ones) and the vector afterwards. */
  datatype EraseStep<T> = EraseStep(pos: nat, vec: Vec<T>)

  function Min(a: nat, b: nat): nat { if a <= b then a else b }
  function Max(a: nat, b: nat): nat { if a >= b then a else b }

  /** The three pointers of the vector. */
  function Data<T>(v: Vec<T>): ImplData {
    ImplData(v.start, v.start + |v.elems| * v.alloc.elem.size, v.start + v.cap * v.alloc.elem.size)
  }

  /** `max_size` (`_S_max_size`): the smaller of `PTRDIFF_MAX / sizeof(T)` and
      the allocator's `max_size`. */
  function MaxSize<T>(v: Vec<T>): (r: nat)
    ensures r * v.alloc.elem.size <= PtrdiffMax && r <= PageAllocator.MaxSize(v.alloc)
    ensures r == TypeMaxSize(v.alloc) || r == PageAllocator.MaxSize(v.alloc)
  {
    Min(TypeMaxSize(v.alloc), PageAllocator.MaxSize(v.alloc))
  }

  /** What every operation keeps: the elements fit the capacity, the capacity
      does not exceed `max_size`, the allocator's arena is ready, and a null
      block holds no element. */
  predicate Inv<T>(v: Vec<T>) {
    && |v.elems| <= v.cap <= MaxSize(v)
    && Ready(v.alloc)
    && (v.start == 0 ==> |v.elems| == 0)
  }

  /** `w` is `v`'s vector after an operation: same element type, ceiling and
      expander; only the arena may differ. */
  predicate SameKind<T>(v: Vec<T>, w: Vec<T>) {
    w.alloc == v.alloc.(pool := w.alloc.pool) && w.continuous == v.continuous
  }

  /** `n` copies of `x`. */
  function Fill<T>(x: T, n: nat): (r: seq<T>)
    ensures |r| == n
    ensures forall i :: 0 <= i < n ==> r[i] == x
  {
    if n == 0 then [] else Fill(x, n - 1) + [x]
  }

  /** `std::move(first, last, dest)` within one sequence, with `dest` not after
      `first`: element by element, front to back. */
  function MoveRange<T>(s: seq<T>, first: nat, last: nat, dest: nat): (r: seq<T>)
    requires dest <= first <= last <= |s|
    ensures r == s[..dest] + s[first..last] + s[dest + (last - first)..]
    decreases last - first
  {
    if first == last then s
    else
      var s1 := s[dest := s[first]];
      assert s1[first + 1..last] == s[first + 1..last];
      assert s1[..dest + 1] == s[..dest] + [s[first]];
      MoveRange(s1, first + 1, last, dest + 1)
  }

  /** `_M_check_len(n)`: `length_error` when fewer than `n` elements remain below
      `max_size`; otherwise the new length `size + max(size, n)`, replaced by
      `max_size` when it wraps or exceeds it. */
  function CheckLen<T>(v: Vec<T>, n: nat): (r: Result<nat>)
    ensures r.Err? <==> SizeT(MaxSize(v) - |v.elems|) < n
    ensures r.Err? ==> r.error == LengthError
    ensures |v.elems| <= MaxSize(v) && r.Ok? ==>
      && |v.elems| + n <= r.value <= MaxSize(v)
      && (r.value >= 2 * |v.elems| || r.value == MaxSize(v))
    ensures |v.elems| <= MaxSize(v) && r.Ok? ==>
      r.value == Min(Max(2 * |v.elems|, |v.elems| + n), MaxSize(v))
  {
    var max := MaxSize(v);
    var size := |v.elems|;
    if SizeT(max - size) < n then Err(LengthError)
    else
      var len := SizeT(size + Max(size, n));
      Ok(if len < size || len > max then max else len)
  }

  /** `grow(k)`: nothing for a null block; otherwise ask `_M_check_len(k)` for
      the new length (which may throw) and, with a continuous allocator, try
      to extend the block in place from the capacity to that length. */
  function Grow<T>(v: Vec<T>, os: Os, k: nat): (r: Result<GrowStep<T>>)
    requires Inv(v)
    ensures r.Err? <==> v.start != 0 && CheckLen(v, k).Err?
    ensures r.Err? ==> r.error == LengthError
    ensures r.Ok? ==>
      var w := r.value.vec;
      && Inv(w) && SameKind(v, w) && w.start == v.start && w.elems == v.elems
    ensures r.Ok? && r.value.grown ==>
      && v.start != 0 && v.continuous
      && r.value.vec.cap == CheckLen(v, k).value
    ensures r.Ok? && !r.value.grown ==> r.value.vec.cap == v.cap
    ensures r.Ok? && (v.start == 0 || !v.continuous) ==> r.value == GrowStep(false, v)
    ensures r.Ok? && v.start != 0 && v.continuous ==>
      var e := Extend(v.alloc, os, v.start, v.cap, CheckLen(v, k).value);
      r.value.grown == e.ok && r.value.vec.alloc == e.alloc
  {
    if v.start == 0 then Ok(GrowStep(false, v))
    else
      match CheckLen(v, k)
      case Err(e) => Err(e)
      case Ok(newSz) =>
        if !v.continuous then Ok(GrowStep(false, v))
        else
          var e := Extend(v.alloc, os, v.start, v.cap, newSz);
          if e.ok then Ok(GrowStep(true, v.(cap := newSz, alloc := e.alloc)))
          else Ok(GrowStep(false, v.(alloc := e.alloc)))
  }

  /** `_M_realloc_insert(pos, x)`: allocate `_M_check_len(1)` elements, build
      the old elements around `x` there, and hand the old block back with its
      whole capacity. A null block from an exhausted arena would be written
      through; the model reports that as `NullStorage`. */
  function ReallocInsert<T>(v: Vec<T>, os: Os, pos: nat, x: T): (r: Result<Vec<T>>)
    requires Inv(v) && pos <= |v.elems|
    ensures r.Ok? ==>
      && Inv(r.value) && SameKind(v, r.value)
      && r.value.elems == v.elems[..pos] + [x] + v.elems[pos..]
      && r.value.cap == CheckLen(v, 1).value
      && r.value.start != 0
    ensures r.Ok? ==>
      var s := MAllocate(v.alloc, os, r.value.cap);
      && s.Ok? && r.value.start == s.value.ptr
      && r.value.alloc == MDeallocate(s.value.alloc, v.start, v.cap)
    ensures r.Err? ==> r.error in {LengthError, BadAlloc, NullStorage}
    ensures r.Err? && r.error == LengthError <==> |v.elems| == MaxSize(v)
  {
    match CheckLen(v, 1)
    case Err(e) => Err(e)
    case Ok(len) =>
      match MAllocate(v.alloc, os, len)
      case Err(e) => Err(e)
      case Ok(s) =>
        if s.ptr == 0 then Err(NullStorage)
        else Ok(Vec(s.ptr, v.elems[..pos] + [x] + v.elems[pos..], len,
                    MDeallocate(s.alloc, v.start, v.cap), v.continuous))
  }

  /** `push_back(x)` and `emplace_back(x)`: construct in spare capacity; when
      there is none, grow in place by one and retry; otherwise relocate. */
  function PushBack<T>(v: Vec<T>, os: Os, x: T): (r: Result<Vec<T>>)
    requires Inv(v)
    ensures r.Ok? ==> Inv(r.value) && SameKind(v, r.value) && r.value.elems == v.elems + [x]
    ensures r.Err? ==> r.error in {LengthError, BadAlloc, NullStorage}
    ensures |v.elems| < v.cap && v.start != 0 ==> r == Ok(v.(elems := v.elems + [x]))
    ensures |v.elems| == v.cap ==>
      var g := Grow(v, os, 1);
      r == (if g.Err? then Err(g.error)
            else if g.value.grown then Ok(g.value.vec.(elems := v.elems + [x]))
            else ReallocInsert(g.value.vec, os, |v.elems|, x))
    decreases if |v.elems| < v.cap then 0 else 1
  {
    if |v.elems| != v.cap then
      if v.start == 0 then Err(NullStorage) else Ok(v.(elems := v.elems + [x]))
    else
      match Grow(v, os, 1)
      case Err(e) => Err(e)
      case Ok(g) =>
        if g.grown then PushBack(g.vec, os, x)
        else
          assert v.elems[..|v.elems|] + [x] + v.elems[|v.elems|..] == v.elems + [x];
          ReallocInsert(g.vec, os, |v.elems|, x)
  }

  /** The relocating half of `reserve(n)`: allocate exactly `n` elements, move
      the elements there and hand the old block back with its whole capacity.
      A null block is only harmless when there is nothing to move. */
  function ReserveRelocate<T>(v: Vec<T>, os: Os, n: nat): (r: Result<Vec<T>>)
    requires Inv(v) && v.cap < n <= MaxSize(v)
    ensures r.Ok? ==>
      && Inv(r.value) && SameKind(v, r.value)
      && r.value.elems == v.elems && r.value.cap == n
    ensures r.Ok? ==>
      var s := MAllocate(v.alloc, os, n);
      && s.Ok? && r.value.start == s.value.ptr
      && r.value.alloc == MDeallocate(s.value.alloc, v.start, v.cap)
    ensures r.Err? ==> r.error in {BadAlloc, NullStorage}
  {
    match MAllocate(v.alloc, os, n)
    case Err(e) => Err(e)
    case Ok(s) =>
      if s.ptr == 0 && |v.elems| > 0 then Err(NullStorage)
      else Ok(Vec(s.ptr, v.elems, n, MDeallocate(s.alloc, v.start, v.cap), v.continuous))
  }

  /** `reserve(n)` as written: `length_error` beyond `max_size`; nothing to do
      when the capacity suffices; otherwise `grow(n)` and retry, or relocate.
      `grow(n)` asks `_M_check_len(n)` for room for `n` more elements, so it
      can throw for an `n` that `reserve` itself accepted. */
  function ReserveAsWritten<T>(v: Vec<T>, os: Os, n: nat): (r: Result<Vec<T>>)
    requires Inv(v)
    ensures n > MaxSize(v) ==> r == Err(LengthError)
    ensures n <= v.cap ==> r == Ok(v)
    ensures r.Ok? ==> Inv(r.value) && SameKind(v, r.value) && r.value.elems == v.elems && n <= r.value.cap
    ensures v.cap < n <= MaxSize(v) ==>
      var g := Grow(v, os, n);
      r == (if g.Err? then Err(g.error)
            else if g.value.grown then Ok(g.value.vec)
            else ReserveRelocate(g.value.vec, os, n))
    decreases if v.cap < n then 1 else 0
  {
    if n > MaxSize(v) then Err(LengthError)
    else if v.cap >= n then Ok(v)
    else
      match Grow(v, os, n)
      case Err(e) => Err(e)
      case Ok(g) => if g.grown then ReserveAsWritten(g.vec, os, n) else ReserveRelocate(g.vec, os, n)
  }

  /** `reserve(n)` with the growth asked for as the shortfall `n - size()`, so
      that `_M_check_len` throws exactly when `reserve` does. */
  function Reserve<T>(v: Vec<T>, os: Os, n: nat): (r: Result<Vec<T>>)
    requires Inv(v)
    ensures r.Err? && r.error == LengthError <==> n > MaxSize(v)
    ensures n <= v.cap ==> r == Ok(v)
    ensures r.Ok? ==> Inv(r.value) && SameKind(v, r.value) && r.value.elems == v.elems && n <= r.value.cap
    ensures r.Err? ==> r.error in {LengthError, BadAlloc, NullStorage}
    ensures v.cap < n <= MaxSize(v) ==>
      var g := Grow(v, os, n - |v.elems|);
      && g.Ok?
      && r == (if g.value.grown then Ok(g.value.vec) else ReserveRelocate(g.value.vec, os, n))
    decreases if v.cap < n then 1 else 0
  {
    if n > MaxSize(v) then Err(LengthError)
    else if v.cap >= n then Ok(v)
    else
      match Grow(v, os, n - |v.elems|)
      case Err(e) => Err(e)
      case Ok(g) => if g.grown then Reserve(g.vec, os, n) else ReserveRelocate(g.vec, os, n)
  }

  /** `_M_default_append(n)`: append `n` value-initialised elements `d`, in
      spare capacity, after growing in place, or in a relocated block of
      `_M_check_len(n)` elements. */
  function DefaultAppend<T>(v: Vec<T>, os: Os, n: nat, d: T): (r: Result<Vec<T>>)
    requires Inv(v)
    ensures r.Ok? ==> Inv(r.value) && SameKind(v, r.value) && r.value.elems == v.elems + Fill(d, n)
    ensures n <= v.cap - |v.elems| && r.Ok? ==> r.value.cap == v.cap && r.value.start == v.start
    ensures n == 0 ==> r == Ok(v)
    ensures n <= v.cap - |v.elems| && v.start != 0 ==> r == Ok(v.(elems := v.elems + Fill(d, n)))
    ensures r.Err? ==> r.error in {LengthError, BadAlloc, NullStorage}
    decreases if n <= v.cap - |v.elems| then 0 else 1
  {
    if n == 0 then Ok(v)
    else if v.cap - |v.elems| >= n then
      if v.start == 0 then Err(NullStorage) else Ok(v.(elems := v.elems + Fill(d, n)))
    else
      match Grow(v, os, n)
      case Err(e) => Err(e)
      case Ok(g) =>
        if g.grown then DefaultAppend(g.vec, os, n, d)
        else DefaultAppendRelocate(g.vec, os, n, d)
  }

  /** The relocating branch of `_M_default_append`: a block of
      `_M_check_len(n)` elements from `_M_allocate`, the old elements followed
      by `n` value-initialised ones, and the old block freed with its whole
      capacity. */
  function DefaultAppendRelocate<T>(v: Vec<T>, os: Os, n: nat, d: T): (r: Result<Vec<T>>)
    requires Inv(v) && n > 0
    ensures r.Ok? ==>
      && Inv(r.value) && SameKind(v, r.value)
      && r.value.elems == v.elems + Fill(d, n)
      && r.value.cap == CheckLen(v, n).value
      && r.value.start != 0
    ensures r.Ok? ==>
      var s := MAllocate(v.alloc, os, r.value.cap);
      && s.Ok? && r.value.start == s.value.ptr
      && r.value.alloc == MDeallocate(s.value.alloc, v.start, v.cap)
    ensures r.Err? ==> r.error in {LengthError, BadAlloc, NullStorage}
    ensures r.Err? && r.error == LengthError <==> |v.elems| + n > MaxSize(v)
  {
    match CheckLen(v, n)
    case Err(e) => Err(e)
    case Ok(len) =>
      match MAllocate(v.alloc, os, len)
      case Err(e) => Err(e)
      case Ok(s) =>
        if s.ptr == 0 then Err(NullStorage)
        else Ok(Vec(s.ptr, v.elems + Fill(d, n), len,
                    MDeallocate(s.alloc, v.start, v.cap), v.continuous))
  }

  /** `resize(m)`: append value-initialised elements `d` up to `m`, or drop the
      tail beyond `m`. */
  function Resize<T>(v: Vec<T>, os: Os, m: nat, d: T): (r: Result<Vec<T>>)
    requires Inv(v)
    ensures r.Ok? ==>
      && Inv(r.value) && SameKind(v, r.value) && |r.value.elems| == m
      && r.value.elems[..Min(m, |v.elems|)] == v.elems[..Min(m, |v.elems|)]
      && (forall i :: |v.elems| <= i < m ==> r.value.elems[i] == d)
    ensures m <= |v.elems| ==> r.Ok? && r.value.cap == v.cap && r.value.start == v.start
  {
    if m > |v.elems| then DefaultAppend(v, os, m - |v.elems|, d)
    else if m < |v.elems| then Ok(v.(elems := v.elems[..m]))
    else Ok(v)
  }

  /** `_M_erase(pos)`: move the tail one place down and destroy the last
      element; the position is returned. */
  function Erase<T>(v: Vec<T>, pos: nat): (r: EraseStep<T>)
    requires pos < |v.elems|
    ensures r.pos == pos
    ensures r.vec == v.(elems := r.vec.elems)
    ensures r.vec.elems == v.elems[..pos] + v.elems[pos + 1..]
  {
    var s := if pos + 1 != |v.elems| then MoveRange(v.elems, pos + 1, |v.elems|, pos) else v.elems;
    EraseStep(pos, v.(elems := s[..|s| - 1]))
  }

  /** `_M_erase(first, last)`: move the tail down over the erased range and
      destroy what is left past the new end. */
  function EraseRange<T>(v: Vec<T>, first: nat, last: nat): (r: EraseStep<T>)
    requires first <= last <= |v.elems|
    ensures r.pos == first
    ensures r.vec == v.(elems := r.vec.elems)
    ensures r.vec.elems == v.elems[..first] + v.elems[last..]
  {
    if first != last then
      var s := if last != |v.elems| then MoveRange(v.elems, last, |v.elems|, first) else v.elems;
      EraseStep(first, v.(elems := s[..first + (|v.elems| - last)]))
    else EraseStep(first, v)
  }

  /** `at(n)`: `out_of_range` from `_M_range_check` past the last element. */
  function At<T>(v: Vec<T>, n: nat): (r: Result<T>)
    ensures r.Err? <==> n >= |v.elems|
    ensures r.Err? ==> r.error == OutOfRange
    ensures r.Ok? ==> r.value == v.elems[n]
  {
    if n >= |v.elems| then Err(OutOfRange) else Ok(v.elems[n])
  }

  /** The retry step of `_M_fill_assign(n, val)` and of copy assignment as
      written: when `n` elements do not fit, `grow(n - capacity())` and, if
      that reports success, start over. */
  function GrowByShortfallAsWritten<T>(v: Vec<T>, os: Os, n: nat): (r: Result<GrowStep<T>>)
    requires Inv(v) && v.cap < n
    ensures r.Err? <==> v.start != 0 && |v.elems| + (n - v.cap) > MaxSize(v)
    ensures r.Ok? ==> Inv(r.value.vec) && r.value.vec.elems == v.elems
    ensures r.Ok? && r.value.grown ==>
      r.value.vec.cap == Min(Max(2 * |v.elems|, |v.elems| + (n - v.cap)), MaxSize(v))
  {
    Grow(v, os, n - v.cap)
  }

  /** The retry step with the growth asked for as `n - size()`: a reported
      success leaves room for all `n` elements, so the retry takes the
      in-capacity branch. */
  function GrowByShortfall<T>(v: Vec<T>, os: Os, n: nat): (r: Result<GrowStep<T>>)
    requires Inv(v) && v.cap < n
    ensures r.Err? <==> v.start != 0 && n > MaxSize(v)
    ensures r.Ok? && r.value.grown ==> n <= r.value.vec.cap
    ensures r.Ok? ==> Inv(r.value.vec) && r.value.vec.elems == v.elems
  {
    Grow(v, os, n - |v.elems|)
  }
}

=== FILE: vector_base.dfy ===
/** The storage layer `_Vector_base` of container/vector_inner.h: the three
    pointers of `_Vector_impl_data` and the helpers that obtain and release
    the element block through the allocator. Pointers are byte addresses
    (0 for `nullptr`); pointer arithmetic on `T*` scales by the element size. */
module VectorBase {
  import opened Common
  import opened Platform
  import Arena
  import opened PageAllocator

  /** `_Vector_impl_data`: `_M_start`, `_M_finish`, `_M_end_of_storage`. */
  datatype ImplData = ImplData(start: nat, finish: nat, endOfStorage: nat)

  /** The value-initialised `_Vector_impl_data`: three null pointers. */
  const NullData: ImplData := ImplData(0, 0, 0)

  /** The three pointers delimit `[start, finish)` of constructed elements
      inside `[start, end_of_storage)`, in whole elements of `size` bytes. */
  predicate WellFormed(d: ImplData, size: Pos) {
    && d.start <= d.finish <= d.endOfStorage
    && (d.finish - d.start) % size == 0
    && (d.endOfStorage - d.start) % size == 0
  }

  /** `size()`: `_M_finish - _M_start`, in elements. */
  function SizeOf(d: ImplData, size: Pos): (r: nat)
    requires d.start <= d.finish
    ensures (d.finish - d.start) % size == 0 ==> d.start + r * size == d.finish
  {
    (d.finish - d.start) / size
  }

  /** `capacity()`: `_M_end_of_storage - _M_start`, in elements. */
  function CapacityOf(d: ImplData, size: Pos): (r: nat)
    requires d.start <= d.endOfStorage
    ensures (d.endOfStorage - d.start) % size == 0 ==> d.start + r * size == d.endOfStorage
  {
    (d.endOfStorage - d.start) / size
  }

  /** `_M_copy_data`: the target takes the source's three pointers. */
  function CopyData(target: ImplData, source: ImplData): (r: ImplData)
    ensures r.start == source.start && r.finish == source.finish && r.endOfStorage == source.endOfStorage
  {
    source
  }

  /** `_M_swap_data`, through a temporary as the source does it: the pair
      `(this, x)` afterwards. */
  function SwapData(self: ImplData, x: ImplData): (r: (ImplData, ImplData))
    ensures r.0 == x && r.1 == self
  {
    var tmp := CopyData(NullData, self);
    var self2 := CopyData(self, x);
    var x2 := CopyData(x, tmp);
    (self2, x2)
  }

  /** The move constructor of `_Vector_impl_data`: the pair (new object,
      moved-from source). */
  function MoveData(x: ImplData): (r: (ImplData, ImplData))
    ensures r.0 == x && r.1 == NullData
  {
    (ImplData(x.start, x.finish, x.endOfStorage), NullData)
  }

  /** `_M_allocate`: a request for 0 elements yields `nullptr` without asking
      the allocator; any other request goes to `allocate`. */
  function MAllocate(a: Allocator, os: Os, n: nat): (r: Result<AllocStep>)
    requires Arena.PageSizeKnown(a.pool)
    ensures n == 0 ==> r == Ok(AllocStep(0, a))
    ensures n != 0 ==> r == Allocate(a, os, n)
    ensures r.Ok? ==> r.value.alloc == a.(pool := r.value.alloc.pool) && Arena.PageSizeKnown(r.value.alloc.pool)
  {
    if n != 0 then Allocate(a, os, n) else Ok(AllocStep(0, a))
  }

  /** `_M_deallocate`: a null pointer is ignored; anything else goes to
      `deallocate` with the count given. */
  function MDeallocate(a: Allocator, p: nat, n: nat): (r: Allocator)
    ensures p == 0 ==> r == a
    ensures p != 0 ==> r == Deallocate(a, p, n)
    ensures r == a.(pool := r.pool)
    ensures r.pool.pageSize == a.pool.pageSize && r.pool.slotSize == a.pool.slotSize
  {
    if p != 0 then Deallocate(a, p, n) else a
  }

  /** The storage `_M_create_storage` sets up, and the allocator afterwards. */
  datatype Storage = Storage(data: ImplData, alloc: Allocator)

  /** `_M_create_storage`: a block of `n` elements with no element yet. */
  function CreateStorage(a: Allocator, os: Os, n: nat): (r: Result<Storage>)
    requires Arena.PageSizeKnown(a.pool)
    ensures r.Err? <==> MAllocate(a, os, n).Err?
    ensures r.Ok? ==>
      && WellFormed(r.value.data, a.elem.size)
      && r.value.data.start == MAllocate(a, os, n).value.ptr
      && SizeOf(r.value.data, a.elem.size) == 0
      && CapacityOf(r.value.data, a.elem.size) == n
    ensures r.Ok? ==> r.value.alloc == MAllocate(a, os, n).value.alloc
  {
    match MAllocate(a, os, n)
    case Err(e) => Err(e)
    case Ok(s) =>
      EmptyBlock(s.ptr, n, a.elem.size);
      Ok(Storage(ImplData(s.ptr, s.ptr, s.ptr + n * a.elem.size), s.alloc))
  }

  /** A block of `n` elements at `start` with none constructed yet. */
  lemma EmptyBlock(start: nat, n: nat, size: Pos)
    ensures var d := ImplData(start, start, start + n * size);
      WellFormed(d, size) && SizeOf(d, size) == 0 && CapacityOf(d, size) == n
  {
    MulDivCancel(n, size);
  }

  /** `~_Vector_base`: hand back the whole block, `end_of_storage - start`
      elements, whatever the size. */
  function DestroyBase(d: ImplData, a: Allocator): (r: Allocator)
    requires d.start <= d.endOfStorage
    ensures r == a.(pool := r.pool)
    ensures d.start == 0 || a.pool.beginGp == 0 ==> r == a
    ensures d.start != 0 && a.pool.beginGp != 0 && WellFormed(d, a.elem.size) ==>
      var c := (d.endOfStorage - d.start) / a.elem.size;
      && d.start + c * a.elem.size == d.endOfStorage
      && r.pool == a.pool.(occupiedSlots := SizeT(a.pool.occupiedSlots - c),
                           freeSlotsLeft := SizeT(a.pool.freeSlotsLeft + c))
  {
    MDeallocate(a, d.start, CapacityOf(d, a.elem.size))
  }
}

=== FILE: vector_properties.dfy ===
/** Properties of the vector: its pointers agree with its size and capacity,
    the storage helpers, when `push_back` throws, growth in place on the page
    allocator, the block sharing a relocation leaves behind, and the two ways
    the grow-and-retry paths misuse `grow`. */
module VectorProperties {
  import opened Common
  import opened Platform
  import Arena
  import ArenaProperties
  import PageAllocatorProperties
  import opened PageAllocator
  import opened VectorBase
  import opened Vector

  // ---------------------------------------------------------------------
  // _Vector_base
  // ---------------------------------------------------------------------

  /** The vector's three pointers are well formed, and `size()` and
      `capacity()` computed from them are the element count and the
      capacity. */
  lemma DataAgrees<T>(v: Vec<T>)
    requires Inv(v)
    ensures var d := Data(v); var s := v.alloc.elem.size;
      && WellFormed(d, s)
      && SizeOf(d, s) == |v.elems|
      && CapacityOf(d, s) == v.cap
  {
    var s := v.alloc.elem.size;
    MulMono(|v.elems|, v.cap, s);
    MulDivCancel(|v.elems|, s);
    MulDivCancel(v.cap, s);
  }

  /** `_M_swap_data` applied twice restores both objects. */
  lemma SwapTwiceIsIdentity(a: ImplData, b: ImplData)
    ensures var s := SwapData(a, b); SwapData(s.0, s.1) == (a, b)
  {
  }

  /** The moved-from object of the move constructor is the value-initialised
      one, and moving it again transfers nothing. */
  lemma MoveEmptiesSource(x: ImplData)
    ensures MoveData(x).1 == NullData
    ensures MoveData(MoveData(x).1) == (NullData, NullData)
  {
  }

  /** `~_Vector_base` hands back the full capacity, not the size: on a mapped
      arena, destroying a vector with `c` elements of capacity moves `c` slots
      from occupied to free, whatever its size. */
  lemma DestroyBaseReleasesCapacity<T>(v: Vec<T>)
    requires Inv(v) && v.start != 0 && Arena.Layout(v.alloc.pool)
    requires v.cap <= v.alloc.pool.occupiedSlots
    ensures var a := DestroyBase(Data(v), v.alloc);
      && a.pool.occupiedSlots == v.alloc.pool.occupiedSlots - v.cap
      && a.pool.freeSlotsLeft == v.alloc.pool.freeSlotsLeft + v.cap
  {
    DataAgrees(v);
    ArenaProperties.CapacityBelowSizeMax(v.alloc.pool);
  }

  /** `_M_create_storage(0)` asks the allocator for nothing: a null block of
      capacity 0 and an untouched allocator. */
  lemma CreateEmptyStorage(a: Allocator, os: Os)
    requires Arena.PageSizeKnown(a.pool)
    ensures CreateStorage(a, os, 0) == Ok(Storage(NullData, a))
  {
  }

  /** `_Vector_base(n, a)` followed by `~_Vector_base` is a round trip on the
      arena for every `n`: the destructor frees exactly the capacity the
      constructor allocated, so the counters return to what they were and
      at most the commit frontier has advanced. */
  lemma CreateThenDestroyRoundTrip(a: Allocator, os: Os, n: nat)
    requires Arena.Layout(a.pool)
    ensures var r := CreateStorage(a, os, n);
      r.Ok? && r.value.data.start != 0 ==>
        var d := DestroyBase(r.value.data, r.value.alloc);
        && d == a.(pool := d.pool)
        && d.pool == a.pool.(firstNotCommitted := d.pool.firstNotCommitted)
        && a.pool.firstNotCommitted <= d.pool.firstNotCommitted
  {
    var r := CreateStorage(a, os, n);
    if r.Ok? && r.value.data.start != 0 {
      PageAllocatorProperties.AllocateDeallocateRoundTrip(a, os, n);
    }
  }

  // ---------------------------------------------------------------------
  // push_back, at
  // ---------------------------------------------------------------------

  /** `_M_check_len(n)` is the growth policy of amortised doubling: the new
      length is the least one that leaves room for `n` more elements and at
      least doubles the size, unless `max_size` caps it first. Every shorter
      length is too short or under-doubles below the cap. */
  lemma CheckLenIsLeastAdequate<T>(v: Vec<T>, n: nat, len: nat)
    requires Inv(v) && CheckLen(v, n).Ok?
    requires |v.elems| + n <= len < CheckLen(v, n).value
    ensures len < 2 * |v.elems| && len < Vector.MaxSize(v)
  {
  }

  /** `push_back` throws `length_error` exactly when the vector is full and
      already holds `max_size` elements. */
  lemma PushBackLengthErrorIff<T>(v: Vec<T>, os: Os, x: T)
    requires Inv(v)
    ensures PushBack(v, os, x) == Err(LengthError) <==> |v.elems| == v.cap == Vector.MaxSize(v)
  {
    if |v.elems| == v.cap {
      var g := Grow(v, os, 1);
      if g.Ok? && g.value.grown {
        assert |g.value.vec.elems| < g.value.vec.cap;
      }
    }
  }

  /** After `push_back(x)`, `at` finds `x` at the old size and every earlier
      element where it was. */
  lemma PushBackThenAt<T>(v: Vec<T>, os: Os, x: T, i: nat)
    requires Inv(v) && PushBack(v, os, x).Ok?
    ensures At(PushBack(v, os, x).value, |v.elems|) == Ok(x)
    ensures i < |v.elems| ==> At(PushBack(v, os, x).value, i) == At(v, i)
  {
  }

  // ---------------------------------------------------------------------
  // Growth in place
  // ---------------------------------------------------------------------

  /** The block of `v` is the arena's trailing block: it ends at the bump
      pointer. */
  predicate Trailing<T>(v: Vec<T>) {
    v.start + v.cap * v.alloc.elem.size == Arena.SlotAddr(v.alloc.pool, v.alloc.pool.occupiedSlots)
  }

  /** After `erase(pos)`, `at` finds the elements before `pos` where they were
      and every later element one place down; the last index is out of range. */
  lemma EraseThenAt<T>(v: Vec<T>, pos: nat, i: nat)
    requires pos < |v.elems|
    ensures At(Erase(v, pos).vec, i) == if i < pos then At(v, i) else At(v, i + 1)
  {
    var w := Erase(v, pos).vec;
    if i < pos {
      assert w.elems[i] == v.elems[..pos][i];
    } else if i + 1 < |v.elems| {
      assert w.elems[i] == v.elems[pos + 1..][i - pos];
    }
  }

  /** Erasing one element is erasing the range of length one at its position. */
  lemma EraseIsRangeOfOne<T>(v: Vec<T>, pos: nat)
    requires pos < |v.elems|
    ensures Erase(v, pos) == EraseRange(v, pos, pos + 1)
  {
  }

  /** After `resize(m)`, `at` answers for exactly `m` positions: the old
      element where there was one, the value-initialised element after it. */
  lemma ResizeThenAt<T>(v: Vec<T>, os: Os, m: nat, d: T, i: nat)
    requires Inv(v) && Resize(v, os, m, d).Ok?
    ensures At(Resize(v, os, m, d).value, i) ==
      if i >= m then Err(OutOfRange) else if i < |v.elems| then At(v, i) else Ok(d)
  {
    var w := Resize(v, os, m, d).value;
    if i < m && i < |v.elems| {
      var k := Min(m, |v.elems|);
      assert w.elems[..k][i] == v.elems[..k][i];
    }
  }

  /** With a continuous allocator, a vector whose block is the arena's
      trailing block grows in place to `_M_check_len(k)` when the arena has
      the room and its host refuses no page; the block stays where it is and
      stays the trailing block. */
  lemma GrowExtendsInPlace<T>(v: Vec<T>, os: Os, k: nat)
    requires Inv(v) && v.start != 0 && v.continuous
    requires Arena.Layout(v.alloc.pool) && os.protectRefused == {} && Trailing(v)
    requires CheckLen(v, k).Ok? && CheckLen(v, k).value - v.cap <= v.alloc.pool.freeSlotsLeft
    requires v.cap <= CheckLen(v, k).value
    ensures var r := Grow(v, os, k);
      && r.Ok? && r.value.grown
      && r.value.vec.start == v.start
      && r.value.vec.cap == CheckLen(v, k).value
      && Trailing(r.value.vec) && Arena.Layout(r.value.vec.alloc.pool)
  {
    var newSz := CheckLen(v, k).value;
    var d := newSz - v.cap;
    var p := v.alloc.pool;
    var sz := v.alloc.elem.size;
    AlignedSizeOfType(v.alloc.elem);
    assert p.slotSize == sz;
    assert newSz < SizeMax by { DivMulLe(PtrdiffMax, sz); }
    ArenaProperties.ExtendSucceedsWithRoom(p, os, v.start, v.cap, d);
    var e := Arena.ExtendAllocation(p, os, v.start, v.cap, newSz);
    assert e.ok && e.pool.occupiedSlots == p.occupiedSlots + d;
    ArenaProperties.SlotAddrAdd(p, p.occupiedSlots, d);
    assert newSz == v.cap + d;
    MulAdd(v.cap, d, sz);
    assert Arena.SlotAddr(e.pool, e.pool.occupiedSlots) == Arena.SlotAddr(p, p.occupiedSlots + d);
  }

  /** `push_back` on a full vector whose block is the trailing block of a
      roomy arena extends the block in place: no relocation. */
  lemma PushBackGrowsInPlace<T>(v: Vec<T>, os: Os, x: T)
    requires Inv(v) && v.start != 0 && v.continuous && |v.elems| == v.cap < Vector.MaxSize(v)
    requires Arena.Layout(v.alloc.pool) && os.protectRefused == {} && Trailing(v)
    requires CheckLen(v, 1).value - v.cap <= v.alloc.pool.freeSlotsLeft
    ensures var r := PushBack(v, os, x);
      && r.Ok? && r.value.start == v.start && r.value.cap == CheckLen(v, 1).value
      && r.value.elems == v.elems + [x]
  {
    GrowExtendsInPlace(v, os, 1);
  }

  // ---------------------------------------------------------------------
  // Relocation rewinds the arena
  // ---------------------------------------------------------------------

  /** After `_M_realloc_insert` relocates a full vector, handing back the old
      block rewinds the arena's bump pointer into the new block: the next
      block the arena hands out starts inside the vector's storage, and the
      vector can no longer grow in place. */
  lemma ReallocInsertSharesBlock<T>(v: Vec<T>, os: Os, pos: nat, x: T, m: nat)
    requires Inv(v) && v.start != 0 && 0 < v.cap == |v.elems| && pos <= |v.elems|
    requires Arena.Layout(v.alloc.pool)
    ensures var r := ReallocInsert(v, os, pos, x);
      r.Ok? ==>
        var w := r.value;
        var q := w.alloc.pool;
        var s := v.alloc.elem.size;
        && w.start < Arena.SlotAddr(q, q.occupiedSlots) < w.start + w.cap * s
        && !Trailing(w)
        && (Allocate(w.alloc, os, m).Ok? && Allocate(w.alloc, os, m).value.ptr != 0 ==>
              w.start < Allocate(w.alloc, os, m).value.ptr < w.start + w.cap * s)
  {
    var r := ReallocInsert(v, os, pos, x);
    if r.Ok? {
      var len := CheckLen(v, 1).value;
      var p := v.alloc.pool;
      var o := p.occupiedSlots;
      var s := v.alloc.elem.size;
      AlignedSizeOfType(v.alloc.elem);
      ArenaProperties.BumpOnLayout(p, os, len);
      ArenaProperties.CapacityBelowSizeMax(p);
      var q := r.value.alloc.pool;
      assert q.occupiedSlots == o + (len - v.cap);
      assert Arena.SlotAddr(q, q.occupiedSlots) == Arena.SlotAddr(p, o + (len - v.cap));
      ArenaProperties.SlotAddrAdd(p, o, len - v.cap);
      StrictlyInside(r.value.start, len - v.cap, len, s);
    }
  }

  /** `x + a*s` lies strictly between `x` and `x + b*s` when `0 < a < b`. */
  lemma StrictlyInside(x: nat, a: nat, b: nat, s: Pos)
    requires 0 < a < b
    ensures x < x + a * s < x + b * s
  {
    MulMono(1, a, s);
    MulMono(a + 1, b, s);
    MulSucc(a, s);
  }

  // ---------------------------------------------------------------------
  // The grow-and-retry paths
  // ---------------------------------------------------------------------

  /** As written, `reserve(n)` throws `length_error` for an `n` within
      `max_size` whenever fewer than `n` elements remain free below
      `max_size`: `grow(n)` asks for room for `n` more elements. With the
      default ceiling of 10 objects, a vector of 5 elements in a block of 8
      cannot reserve 9. The corrected `reserve` throws no `length_error`
      there. */
  lemma ReserveThrowsWithinMaxSize<T>(v: Vec<T>, os: Os, n: nat)
    requires Inv(v) && v.start != 0
    requires v.cap < n <= Vector.MaxSize(v) < |v.elems| + n
    ensures ReserveAsWritten(v, os, n) == Err(LengthError)
    ensures Reserve(v, os, n) != Err(LengthError)
  {
  }

  /** The concrete instance: `max_size` 10, size 5, capacity 8, `reserve(9)`. */
  lemma ReserveNineOfTen(a: Allocator, os: Os, start: nat, xs: seq<int>)
    requires Ready(a) && a.objsNumber == DefaultMaxObjects && a.elem.size <= 8
    requires start != 0 && |xs| == 5
    ensures var v := Vec(start, xs, 8, a, true);
      && Inv(v) && Vector.MaxSize(v) == 10
      && ReserveAsWritten(v, os, 9) == Err(LengthError)
      && Reserve(v, os, 9) != Err(LengthError)
  {
    var v := Vec(start, xs, 8, a, true);
    DivAtLeast(PtrdiffMax, a.elem.size, 10);
    ReserveThrowsWithinMaxSize(v, os, 9);
  }

  /** As written, the retry step of `_M_fill_assign` and copy assignment can
      report success without changing anything: for a vector of `s` elements
      in a block of `2s` that is the arena's trailing block, asking for
      `n` with `2s < n <= 3s` elements makes `grow(n - capacity())` compute a
      new length equal to the capacity, and an extension by 0 slots succeeds.
      The retry then sees the very same vector, so it never ends. */
  lemma GrowByShortfallAsWrittenIsFixedPoint<T>(v: Vec<T>, os: Os, n: nat)
    requires Inv(v) && v.start != 0 && v.continuous
    requires Arena.Layout(v.alloc.pool) && Trailing(v)
    requires v.cap == 2 * |v.elems| && v.cap < n <= v.cap + |v.elems|
    ensures GrowByShortfallAsWritten(v, os, n) == Ok(GrowStep(true, v))
  {
    var p := v.alloc.pool;
    AlignedSizeOfType(v.alloc.elem);
    assert CheckLen(v, n - v.cap) == Ok(v.cap);
    ArenaProperties.ExtendOnLayout(p, os, v.start, v.cap, v.cap);
    ArenaProperties.EndByteOnLayout(p, 0);
  }

  /** The concrete instance: size 5, capacity 10, 15 elements asked for. */
  lemma FillAssignFifteenLoops(v: Vec<int>, os: Os)
    requires Inv(v) && v.start != 0 && v.continuous
    requires Arena.Layout(v.alloc.pool) && Trailing(v)
    requires |v.elems| == 5 && v.cap == 10
    ensures GrowByShortfallAsWritten(v, os, 15) == Ok(GrowStep(true, v))
    ensures var g := GrowByShortfall(v, os, 15); g.Ok? && g.value.grown ==> 15 <= g.value.vec.cap
  {
    GrowByShortfallAsWrittenIsFixedPoint(v, os, 15);
  }
}
